=== FILE: README.md ===
# Pipe game: level editor, map writer, level list, settings and stopwatch

A Dafny model of the sequential logic around the pipe-connection puzzle. The game engine itself is not covered. The model covers:

- **Level editor grid** (`LevelEditor`, `Validity`). A map is a `GameProperties` value: rows, cols, flow delay and a grid of cells. Each cell is a Wall, a Fillable cell, or a Termination cell with a type (SOURCE or SINK) and a direction it points to. The model covers placing a tile where the user clicked, rotating interior sources clockwise, and the ordered map checker `checkValidity`. It also states the editor invariant those operations keep: corners are walls, border terminations are sinks that point off the grid, and interior terminations are sources.
- **Map-file writer** (`Serializer`). It turns `GameProperties` into the lines of a map file: seven header lines, then one line per grid row.
- **Level list** (`LevelManager`, `NameOrder`). Loading keeps the regular files whose names end in ".map" and sorts them by `String.compareTo`. `setLevel` rejects a null or empty name. `getAndSetNextLevel` steps through the list.
- **Settings screen** (`Settings`). It runs first-failure-wins validation of rows, columns, delay and flow rate, then writes the values back to the game defaults.
- **Stopwatch text** (`Stopwatch`). It turns a number of elapsed seconds into `MM:SS`.

Stand-ins and assumptions:

- `util/Direction.java` and `util/Coordinate.java` are not part of this model. `Geometry` defines them as an assumption: UP is (-1, 0), DOWN is (+1, 0), LEFT is (0, -1) and RIGHT is (0, +1), and `Offset(Opposite(d))` is the negation of `Offset(d)`. This agrees with the editor, which makes a sink in row 0 point UP.
- `Cell.toSingleChar` is not part of this model. The writer takes the character code of a cell as a parameter `toChar: Cell -> char`.
- The tile size (`Config.TILE_SIZE`) is the parameter `tileSize > 0`.
- When Java would throw `ArrayIndexOutOfBoundsException` (a click outside the grid, or a checker lookup outside it), the model returns `Failure(IndexOutOfBounds)`. `IllegalArgumentException` and `IllegalStateException` from the level list are `Failure(IllegalArgument)` and `Failure(IllegalState)`. A Java `null` is `None`.
- The directory walk is an input. It is either a sequence of (file name, is-regular-file) entries or `None` for an `IOException`. The error alert's result on the settings screen is also an input: a button, or `None` when the alert is closed without pressing one and its result is null. A `NullPointerException` is `Failure(NullAlertResult)`.

Where the code and its documentation differ, the model follows the code:

- `checkValidity` checks for a missing sink before a missing source. Its doc comment lists the source first.
- When `getAndSetNextLevel` reaches the last level, it returns null and keeps the current level. Its doc comment says it sets the level to null.
- `setLevel` is documented to reject a blank name (LevelManager.java:131), but the code tests only for null and `isEmpty` (line 135), so a name of spaces is accepted.
- `setTileByMapCoord` stores the cell without enforcing a single source or sink. Its hint asks for that, but the code does not do it.

## Model

| member | source | states |
|---|---|---|
| Geometry.Offset | src/views/LevelEditorCanvas.java:348-349 | a direction's offset is a unit step along exactly one axis (stand-in for the unseen `getOffset`) |
| Geometry.Opposite | src/views/LevelEditorCanvas.java:349 | the opposite direction differs from the original and its unit offset is the negated offset (stand-in for the unseen Direction) |
| Geometry.RotateClockwise | src/views/LevelEditorCanvas.java:153-162 | a quarter turn never gives back the same or the opposite direction; its offset is the original offset turned clockwise |
| LevelEditor.JavaDiv | src/views/LevelEditorCanvas.java:97-98 | pixel-to-cell division truncates toward zero: bounds of the quotient for non-negative and negative pixels |
| LevelEditor.SetTileByMapCoord | src/views/LevelEditorCanvas.java:138-141 | fails exactly when the cell's own coordinate is outside the grid; otherwise the cell is stored at that coordinate and rows, cols, delay and every other cell are unchanged |
| LevelEditor.TerminationFor | src/views/LevelEditorCanvas.java:117-126 | a "Source/Sink" cell is a sink pointing off the grid on the border and an upward source in the interior |
| LevelEditor.SetTile | src/views/LevelEditorCanvas.java:95-128 | a click changes at most the clicked position and never rows, cols or delay; it fails exactly when it would store outside the grid, which a corner click with "Cell" or "Source/Sink" never does |
| LevelEditor.CornerClickIsNoOp | src/views/LevelEditorCanvas.java:104-116 | a "Cell" or "Source/Sink" click on any of the four corners leaves the map unchanged |
| LevelEditor.ClickedCellContents | src/views/LevelEditorCanvas.java:100-127 | the stored cell for each selection: a wall anywhere; a fillable cell except on corners; a SINK pointing UP in row 0, DOWN in the last row, LEFT in column 0, RIGHT in the last column, in that precedence; otherwise a SOURCE pointing UP |
| LevelEditor.SetTilePreservesInvariant | src/views/LevelEditorCanvas.java:105-126 | every click keeps the editor invariant: corners stay walls, border terminations are outward sinks, interior terminations are sources, and cells know their positions |
| LevelEditor.ToggleSourceRotation | src/views/LevelEditorCanvas.java:146-167 | the toggle keeps the grid rectangular and keeps rows, cols and delay |
| LevelEditor.ToggleCellwise | src/views/LevelEditorCanvas.java:148-164 | an interior termination becomes a SOURCE at its own position, turned one quarter clockwise; every border or non-termination cell is unchanged |
| LevelEditor.ToggleFourTimes | src/views/LevelEditorCanvas.java:153-163 | four toggles restore every direction; interior terminations end as sources at their own positions and all other cells are untouched |
| LevelEditor.ToggleFourTimesIsIdentity | src/views/LevelEditorCanvas.java:146-167 | on a map keeping the editor invariant, four toggles give back exactly the same map |
| LevelEditor.TogglePreservesInvariant | src/views/LevelEditorCanvas.java:148-163 | the toggle keeps the editor invariant |
| Validity.SideScan | src/views/LevelEditorCanvas.java:309-318 | the first sink loop visits exactly column 0 and column cols-1 of rows in [0, rows-1) |
| Validity.EdgeScan | src/views/LevelEditorCanvas.java:320-329 | the second sink loop visits exactly row 0 and row rows-1 of columns in [0, cols-1) |
| Validity.RowScan | src/views/LevelEditorCanvas.java:332-336 | the inner source loop visits exactly the columns of one row in the given range |
| Validity.InteriorScan | src/views/LevelEditorCanvas.java:331-337 | the source loops visit exactly the rectangle of rows [lo, rowHi) and columns [1, colHi) |
| Validity.SideScanOrder | src/views/LevelEditorCanvas.java:309-318 | the side loop's visiting order: position 2k is (lo+k, 0) and position 2k+1 is (lo+k, cols-1), 2(hi-lo) positions in all |
| Validity.EdgeScanOrder | src/views/LevelEditorCanvas.java:320-329 | the edge loop's visiting order: position 2k is (0, lo+k) and position 2k+1 is (rows-1, lo+k), 2(hi-lo) positions in all |
| Validity.RowScanOrder | src/views/LevelEditorCanvas.java:332-336 | the inner source loop visits (row, lo+k) at step k, left to right |
| Validity.InteriorScanOrder | src/views/LevelEditorCanvas.java:331-337 | the source loops visit the rectangle in strict row-major order: top row first, each row left to right |
| Validity.SinkScanOrder | src/views/LevelEditorCanvas.java:309-329 | the whole sink scan position by position: all of the side loop, then all of the edge loop |
| Validity.LastTerminationNoEarlier | src/views/LevelEditorCanvas.java:309-337 | the kept termination is met no earlier than any termination in the scan |
| Validity.LaterPartWins | src/views/LevelEditorCanvas.java:309-337 | when a later loop meets a termination, the kept cell comes from that loop |
| Validity.EdgeLoopSinkWins | src/views/LevelEditorCanvas.java:309-329 | when the edge loop meets a termination, the sink kept for the wall check is one the edge loop met, whatever the side loop found |
| Validity.LastTermination | src/views/LevelEditorCanvas.java:309-337 | the kept cell is absent exactly when no visited cell is a termination; otherwise it is a termination cell the scan visited with no termination after it |
| Validity.WallAt | src/views/LevelEditorCanvas.java:350-352 | the `instanceof Wall` lookup fails exactly outside the grid and otherwise tells whether the cell is a wall |
| Validity.CheckWith | src/views/LevelEditorCanvas.java:339-356 | a verdict implies every scanned position was in the grid; "no error" implies a sink and a source were found, size at least 2x2 and delay at least 1 |
| Validity.CheckWalls | src/views/LevelEditorCanvas.java:347-356 | once the first four checks pass, with the last source and last sink the scans met: the map is accepted exactly when the cell the source faces and the cell behind the sink are in the grid and not walls; "Source tile is blocked by a wall!" exactly when the faced cell is a wall; "Sink tile is blocked by a wall!" exactly when the faced cell is open and the cell behind the sink is a wall; an index error exactly when a looked-up neighbour is outside the grid |
| Validity.CheckOrder | src/views/LevelEditorCanvas.java:339-346 | the first failing check wins, in code order: missing sink, then missing source, then size below 2x2, then delay not positive; the wall checks come only after all four pass |
| Validity.CheckValidity | src/views/LevelEditorCanvas.java:302-357 | as written: acceptance implies size at least 2x2, delay at least 1, a termination on the scanned border and one in [1, rows-2) x [1, cols-2) |
| Validity.CheckValidityCorrected | src/views/LevelEditorCanvas.java:331-337 | with the whole interior [1, rows-1) x [1, cols-1) scanned: acceptance implies size at least 2x2, delay at least 1, a border termination and an interior one |
| Validity.ScansInBounds | src/views/LevelEditorCanvas.java:309-337 | on a rectangular grid with at least one row and column, every scanned position is inside the grid |
| Validity.SourceNeighbourInBounds | src/views/LevelEditorCanvas.java:348-350 | the position an interior source faces is inside the grid |
| Validity.SinkNeighbourInBounds | src/views/LevelEditorCanvas.java:349-352 | under the editor invariant on a grid of at least 2x2, the position behind a border sink is inside the grid |
| Validity.CheckWithInBounds | src/views/LevelEditorCanvas.java:347-353 | under the editor invariant, and with the source scan inside the interior, the checker returns a verdict and never an index error |
| Validity.CheckValidityInBounds | src/views/LevelEditorCanvas.java:302-357 | on a non-empty map keeping the editor invariant, both checker versions return a verdict |
| Validity.ThreeRowsNeverValid | src/views/LevelEditorCanvas.java:331-342 | as written, no map with three rows is accepted; with a sink present it is reported as missing its source |
| Validity.CorrectedMissingSourceExact | src/views/LevelEditorCanvas.java:331-342 | corrected: "Source tile is missing!" is reported exactly when a sink exists and no interior cell is a termination |
| Validity.MissedSourceExample | src/views/LevelEditorCanvas.java:331-342 | a concrete 3x3 map with a source is reported missing its source as written, and is accepted by the corrected checker |
| Validity.LastTerminationSkip | src/views/LevelEditorCanvas.java:309-337 | non-termination cells visited after the last termination do not change which cell the scan keeps |
| Validity.AcceptedAsWritten | src/views/LevelEditorCanvas.java:302-357 | as written, a concrete 4x4 map with its source facing the sink is accepted, and with the source facing a wall it is reported as blocked |
| Validity.FourMapVerdict | src/views/LevelEditorCanvas.java:339-353 | on the 4x4 map, as written: a non-positive delay gives the delay message; with a positive delay the source facing the sink is accepted and the source facing a wall is reported blocked |
| Validity.DelayBoundary | src/views/LevelEditorCanvas.java:345-346 | as written, on the 4x4 map: accepted exactly when the delay is at least 1, and the delay message exactly when it is 0 or less |
| Validity.SaveToFile | src/views/LevelEditorCanvas.java:236-246 | an index error in `checkValidity` escapes as a failure; otherwise the map is printed to the writer exactly when the as-written checker reports nothing, and then the printed lines are the map file's lines (see Serializer.Serialize), with at least 2x2 size and a positive delay |
| Validity.SaveToFileCorrected | src/views/LevelEditorCanvas.java:236-246 | corrected: the same as SaveToFile with the whole-interior checker |
| Validity.CorrectedAcceptsFourMap | src/views/LevelEditorCanvas.java:331-353 | the corrected checker accepts the 4x4 map with its source facing the sink |
| Validity.SaveExamples | src/views/LevelEditorCanvas.java:238-245 | the 3x3 map with a source is refused as written and printed when corrected; the 4x4 map is printed by both |
| Decimal.NatToDecimal | src/io/Serializer.java:38 | a non-negative number renders as a non-empty digit string with no leading zero |
| Decimal.IntToDecimal | src/io/Serializer.java:38-48 | an integer renders as '-' followed by digits exactly when negative, and as digits otherwise; no leading zero in either case, except the single digit of 0 |
| Decimal.NatRoundTrip | src/io/Serializer.java:38-48 | reading the digits of a non-negative rendering gives the number back |
| Decimal.DecimalRoundTrip | src/io/Serializer.java:38-48 | every integer header line reads back as the integer printed |
| Serializer.RowLine | src/io/Serializer.java:54-57 | a grid row's line has the row's length and holds each cell's character in column order |
| Serializer.Serialize | src/io/Serializer.java:32-58 | exactly 7 + number-of-rows lines: "# rows", rows, "# cols", cols, "# delay before first flow", delay, "# map"; number lines that are the `Integer.toString` text of rows, cols and delay and read back to them; then one line per row of `cells`, in order, with one character per cell |
| Serializer.SerializeHeaderInjective | src/io/Serializer.java:36-58 | equal outputs mean equal rows, cols and delay and the same number of grid rows |
| Serializer.MapBlockIgnoresDimensionFields | src/io/Serializer.java:53-54 | the grid block depends on `cells` only: changing the rows and cols fields changes only the header |
| NameOrder.CompareTo | src/controllers/LevelManager.java:97 | `compareTo` is zero exactly for equal names; when one name is a prefix of the other it returns the length difference |
| NameOrder.CompareToFirstDifference | src/controllers/LevelManager.java:97 | at the first index k where two names differ, `compareTo` returns a[k] - b[k] |
| NameOrder.CompareToAntisymmetric | src/controllers/LevelManager.java:97 | `compareTo` with swapped arguments negates the result, and it is zero exactly for equal names |
| NameOrder.LeTransitive | src/controllers/LevelManager.java:97 | the sort order is transitive |
| NameOrder.Insert | src/controllers/LevelManager.java:97 | insertion adds exactly one copy of the name |
| NameOrder.SortNames | src/controllers/LevelManager.java:97 | sorting keeps exactly the same names, as a multiset |
| NameOrder.InsertSorted | src/controllers/LevelManager.java:97 | inserting into a sorted list keeps it sorted |
| NameOrder.SortNamesCorrect | src/controllers/LevelManager.java:97 | the sorted list is ascending by `compareTo` and a permutation of the input |
| NameOrder.SortedHeadsAgree | src/controllers/LevelManager.java:97 | two ascending permutations of the same names start with the same name |
| NameOrder.SortedPermutationUnique | src/controllers/LevelManager.java:97 | any two ascending permutations of the same names are equal, so the stream sort's result is determined |
| LevelManager.MapFileNames | src/controllers/LevelManager.java:92-96 | a name is kept exactly when some entry is a regular file with that name and the name ends in ".map" |
| LevelManager.LoadLevelNames | src/controllers/LevelManager.java:88-102 | the loaded list is empty on an I/O error; otherwise it is the kept names as a multiset, ascending by `compareTo`, each ending in ".map" |
| LevelManager.SetMapDirectory | src/controllers/LevelManager.java:69-73 | changing directory replaces the list with the sorted kept names and keeps the current level; an unreadable directory leaves the list empty |
| LevelManager.SetLevel | src/controllers/LevelManager.java:133-140 | a null or empty name throws IllegalArgumentException and changes nothing; any other name becomes the current level exactly; the list never changes |
| LevelManager.IndexOf | src/controllers/LevelManager.java:161 | -1 exactly when the name is absent; otherwise the first position holding it |
| LevelManager.GetAndSetNextLevel | src/controllers/LevelManager.java:157-173 | throws IllegalStateException exactly when the current name is null or unlisted; otherwise, with k the first index of the current name, it selects and returns names[k+1] when k < size-1, and returns null leaving everything unchanged when k is the last index; the list never changes |
| LevelManager.NextOfListed | src/controllers/LevelManager.java:161-169 | with distinct names, the level after names[i] is names[i+1] |
| LevelManager.AdvanceVisitsInOrder | src/controllers/LevelManager.java:161-169 | with distinct names, n steps from names[i] select names[i+n] |
| LevelManager.LastLevelHasNoNext | src/controllers/LevelManager.java:167-172 | with distinct names, stepping from the last name returns null and keeps the selection |
| LevelManager.LoadedNamesDistinct | src/controllers/LevelManager.java:91-100 | names loaded from a listing with distinct file names are distinct |
| LevelManager.MapFileNamesDistinct | src/controllers/LevelManager.java:92-96 | the filter keeps distinct file names distinct |
| Settings.Validate | src/views/panes/SettingsPane.java:200-211 | rows < 2 gives the row message; otherwise cols < 2 gives the column message; otherwise delay <= 0 gives the delay message; otherwise flow <= 0 gives the flow message; no message exactly when rows >= 2, cols >= 2, delay >= 1 and flow >= 1 |
| Settings.ReturnToMainMenu | src/views/panes/SettingsPane.java:159-182 | without write-back no default changes; with passing validation the four defaults become exactly the field values; a failed validation answered OK changes nothing; a failed validation whose alert was closed without a button throws (null result) and writes nothing, and that is the only failure; a failed validation with any other button writes the invalid field values |
| Settings.WriteBackKeepsDefaultsAcceptable | src/views/panes/SettingsPane.java:161-179 | with the results the OK-only alert can give (OK, or null), acceptable defaults stay acceptable or the call throws before writing |
| Stopwatch.Pad2 | src/views/GameplayInfoPane.java:37 | `%02d` of a value below 100 is two digits that read back as the value |
| Stopwatch.Format | src/views/GameplayInfoPane.java:31-37 | for s >= 0: five characters with ':' at index 2; the two-digit fields read back as (s div 60) mod 60 and s mod 60, both in 00..59 |
| Stopwatch.FormatReadsBack | src/views/GameplayInfoPane.java:34-37 | reading the text back gives s mod 3600 |
| Stopwatch.FormatDropsHours | src/views/GameplayInfoPane.java:34-39 | one hour later the text is the same; the hours field of the JDK 8 variant is gone |
| Stopwatch.FormatInjectiveWithinHour | src/views/GameplayInfoPane.java:34-37 | different durations below one hour give different texts |

## Left out

- The game engine (flow trace, pipe queue, undo, win and loss), the cell and pipe classes, the map reader and the timer are not part of this model. Their source is not among the files modelled, so there is no reader round-trip. The pipe a fillable cell may hold during play is not represented either.
- File choosers, alerts, loading a map into the editor, and the `PrintWriter` output are UI or I/O. The model keeps only the save decision and the lines printed to the writer. The platform line separator is not represented.
- Serializer.Serialize: states the lines printed, not the file's contents. `serializeGameProp` (Serializer.java:34) never flushes or closes its buffered `PrintWriter`, so on reading the code a short map may never reach the file. Buffering is not modelled.
- The `System.out.println(current)` debug output in `getAndSetNextLevel` (LevelManager.java:162) is console I/O and is not modelled.
- Stopwatch.Format: `String.format("%02d:%02d")` uses the default locale's digits (GameplayInfoPane.java:37). The model always produces ASCII digits.
- `resetMap` / `changeAttributes` are left out. Their body is unfinished: it assigns fields of a `gameProp` that is never created.
- `getCurrentLevelPath` (path joining) and the `Files.walk` call are I/O. The walk's result is an input.
- Rendering, scene switching, audio and the gameplay and level-select panes are out of scope.
- LevelEditor.ToggleSourceRotation: requires a rectangular grid matching `rows`/`cols`. The loops are bounded by the `rows`/`cols` fields (LevelEditorCanvas.java:148-149). On a grid larger than the fields, Java toggles only the window [1, rows-1) x [1, cols-1). On a grid smaller than the fields, it throws partway through, after changing some cells. Neither case is modelled.
- LevelEditor.SetTile: pixel coordinates are taken as already-truncated `int`. The `double` to `int` cast is floating point and is not modelled.
- Stopwatch.Format: requires s >= 0. Negative durations follow `java.time.Duration` sign rules, which are not modelled.
- Settings.ReturnToMainMenu: the alert's result is an input. The alert offers only an OK button, so its result is OK, or null when it is closed from the title bar (JavaFX dialog closing rules, read from its documentation). A null result makes `equals` at line 172 throw: nothing is written back and the scene does not switch. The model keeps the code's branch for any other button, which this alert cannot produce. The exception's propagation to the JavaFX event thread is not modelled.
- NameOrder.CompareTo compares characters by code point. Java compares UTF-16 code units, so the order can differ for names with characters outside the Basic Multilingual Plane.
- Java `int` overflow is not modelled. Rows, cols, delay and the stopwatch seconds are unbounded integers.

## Findings

| source | as written | input that shows it | evidently intended | confidence | as-written member | corrected member |
|---|---|---|---|---|---|---|
| src/views/LevelEditorCanvas.java:331-332 | the source scan covers rows [1, rows-2) and columns [1, cols-2), so it misses a source in row rows-2 or column cols-2 | a 3x3 map with a sink at (0,1) pointing UP, a source at (1,1) pointing UP, delay 1: "Source tile is missing!"; no 3x3 map is ever accepted | scan the whole interior [1, rows-1) x [1, cols-1), as the rotation toggle does at lines 148-149 | high (not executed) | Validity.CheckValidity, Validity.MissedSourceExample, Validity.ThreeRowsNeverValid, Validity.SaveToFile | Validity.CheckValidityCorrected, Validity.CorrectedMissingSourceExact, Validity.SaveToFileCorrected |

The save path is modelled both ways. `Validity.SaveToFile` follows the code and gates on the as-written checker. `Validity.SaveToFileCorrected` gates on the corrected one. `Validity.SaveExamples` shows that the 3x3 map is refused by the first and saved by the second.

=== FILE: Cells.dfy ===
/** The map data the level editor works on: cells and the `GameProperties`
    snapshot (row count, column count, flow delay and the cell grid).

    The game's own `Cell`, `Wall`, `FillableCell`, `TerminationCell` and
    `GameProperties` classes are not part of this model; this module gives them
    as one tagged variant. A fillable cell placed by the editor holds no pipe,
    so the pipe a FillableCell may carry during play is not represented. */
module Cells {
  import opened Geometry

  datatype TerminationType = Source | Sink

  /** Every cell remembers its own coordinate, as the Java objects do. */
  datatype Cell =
    | Wall(coord: Coord)
    | Fillable(coord: Coord)
    | Termination(coord: Coord, pointingTo: Direction, kind: TerminationType)

  /** `rows`, `cols` and `delay` are separate fields; nothing ties them to the
      shape of `cells` except the `WellShaped` predicate below. */
  datatype GameProperties = GameProperties(rows: int, cols: int, delay: int, cells: seq<seq<Cell>>)

  /** Whether `cells[c.row][c.col]` can be read without an index exception. */
  predicate InBounds(cells: seq<seq<Cell>>, c: Coord)
  {
    0 <= c.row < |cells| && 0 <= c.col < |cells[c.row]|
  }

  function At(cells: seq<seq<Cell>>, c: Coord): Cell
    requires InBounds(cells, c)
  {
    cells[c.row][c.col]
  }

  /** The grid is a `rows x cols` rectangle, as the `rows`/`cols` fields say. */
  predicate WellShaped(p: GameProperties)
  {
    && p.rows == |p.cells|
    && p.cols >= 0
    && forall i :: 0 <= i < |p.cells| ==> |p.cells[i]| == p.cols
  }

  /** Every cell's own coordinate is its position in the grid. */
  predicate CoordsMatch(cells: seq<seq<Cell>>)
  {
    forall i, j :: 0 <= i < |cells| && 0 <= j < |cells[i]| ==> cells[i][j].coord == Coord(i, j)
  }

  /** The four corners of a `rows x cols` map, as the editor classifies a click. */
  predicate IsCorner(rows: int, cols: int, row: int, col: int)
  {
    || (row == 0 && col == 0)
    || (row == 0 && col == cols - 1)
    || (row == rows - 1 && col == 0)
    || (row == rows - 1 && col == cols - 1)
  }

  predicate OnBorder(rows: int, cols: int, row: int, col: int)
  {
    row == 0 || row == rows - 1 || col == 0 || col == cols - 1
  }

  /** The direction that leaves the grid from a non-corner border position; the
      top and bottom rows take precedence over the side columns. */
  function Outward(rows: int, cols: int, row: int, col: int): (d: Direction)
    requires OnBorder(rows, cols, row, col)
    ensures d == Up ==> row == 0
    ensures d == Down ==> row == rows - 1
    ensures d == Left ==> col == 0
    ensures d == Right ==> col == cols - 1
  {
    if row == 0 then Up
    else if row == rows - 1 then Down
    else if col == 0 then Left
    else Right
  }
}

=== FILE: Decimal.dfy ===
/** Decimal rendering of integers, as `PrintWriter.print(int)` writes them
    (`Integer.toString`: optional '-' then digits without leading zeros), and a
    reference reader that recovers the value from such a rendering. */
module Decimal {
  import opened Wrappers

  predicate IsDigit(c: char)
  {
    '0' <= c <= '9'
  }

  predicate AllDigits(s: string)
  {
    forall i :: 0 <= i < |s| ==> IsDigit(s[i])
  }

  function DigitChar(n: nat): (c: char)
    requires n < 10
    ensures IsDigit(c)
  {
    (n + '0' as int) as char
  }

  function DigitValue(c: char): (n: nat)
    requires IsDigit(c)
    ensures n < 10
  {
    c as int - '0' as int
  }

  /** Digits of `n`, most significant first, with no leading zero. */
  function NatToDecimal(n: nat): (s: string)
    ensures |s| >= 1 && AllDigits(s)
    ensures s[0] == '0' ==> n == 0
  {
    if n < 10 then [DigitChar(n)] else NatToDecimal(n / 10) + [DigitChar(n % 10)]
  }

  /** The text `Integer.toString(n)` produces. */
  function IntToDecimal(n: int): (s: string)
    ensures |s| >= 1
    ensures n < 0 <==> s[0] == '-'
    ensures n >= 0 ==> AllDigits(s)
    ensures n < 0 ==> |s| >= 2 && AllDigits(s[1..]) && s[1] != '0'
    ensures n >= 0 && s[0] == '0' ==> n == 0
  {
    if n < 0 then "-" + NatToDecimal(-n) else NatToDecimal(n)
  }

  /** Value of a digit string (0 for the empty one). */
  function DigitsValue(s: string): nat
    requires AllDigits(s)
  {
    if |s| == 0 then 0 else DigitsValue(s[..|s| - 1]) * 10 + DigitValue(s[|s| - 1])
  }

  /** Reads an optionally negative decimal; `None` for anything else. */
  function ParseDecimal(s: string): (r: Option<int>)
    ensures r.Some? ==> |s| >= 1
  {
    if |s| >= 2 && s[0] == '-' && AllDigits(s[1..]) then Some(-(DigitsValue(s[1..]) as int))
    else if |s| >= 1 && AllDigits(s) then Some(DigitsValue(s))
    else None
  }

  lemma {:induction false} NatRoundTrip(n: nat)
    ensures DigitsValue(NatToDecimal(n)) == n
    decreases n
  {
    if n >= 10 {
      var s := NatToDecimal(n);
      assert s[..|s| - 1] == NatToDecimal(n / 10);
      NatRoundTrip(n / 10);
    }
  }

  /** Every rendering of an integer reads back as that integer. */
  lemma DecimalRoundTrip(n: int)
    ensures ParseDecimal(IntToDecimal(n)) == Some(n)
  {
    var s := IntToDecimal(n);
    if n < 0 {
      assert s[1..] == NatToDecimal(-n);
      NatRoundTrip(-n);
    } else {
      NatRoundTrip(n);
    }
  }
}

=== FILE: Geometry.dfy ===
/** Grid positions and the four compass directions.

    The game's `util/Direction.java` and `util/Coordinate.java` are not part of
    this model. This module is a stand-in and its offsets are an ASSUMPTION:
    rows grow downwards, so UP is (-1, 0) and DOWN is (+1, 0); columns grow to
    the right, so LEFT is (0, -1) and RIGHT is (0, +1). The assumption agrees
    with the level editor, which makes a sink in row 0 point UP, i.e. off the
    top edge of the grid. */
module Geometry {

  /** An immutable (row, col) pair; no bounds are implied. */
  datatype Coord = Coord(row: int, col: int)
  {
    function Add(offset: Coord): Coord
    {
      Coord(row + offset.row, col + offset.col)
    }

  }

  datatype Direction = Up | Down | Left | Right

  /** Unit vector of a direction (stand-in, see the module comment). */
  function Offset(d: Direction): (r: Coord)
    ensures (r.row == 0) != (r.col == 0)
    ensures -1 <= r.row <= 1 && -1 <= r.col <= 1
  {
    match d
    case Up => Coord(-1, 0)
    case Down => Coord(1, 0)
    case Left => Coord(0, -1)
    case Right => Coord(0, 1)
  }

  function Opposite(d: Direction): (r: Direction)
    ensures r != d
    ensures Offset(r) == Coord(-Offset(d).row, -Offset(d).col)
  {
    match d
    case Up => Down
    case Down => Up
    case Left => Right
    case Right => Left
  }

  /** One clockwise quarter turn: UP -> RIGHT -> DOWN -> LEFT -> UP. */
  function RotateClockwise(d: Direction): (r: Direction)
    ensures r != d && r != Opposite(d)
    ensures Offset(r) == Coord(Offset(d).col, -Offset(d).row)
  {
    match d
    case Up => Right
    case Right => Down
    case Down => Left
    case Left => Up
  }

  /** `Opposite` is an involution and every direction comes back after four turns. */
  lemma DirectionLaws(d: Direction)
    ensures Opposite(Opposite(d)) == d
    ensures RotateClockwise(RotateClockwise(d)) == Opposite(d)
    ensures RotateClockwise(RotateClockwise(RotateClockwise(RotateClockwise(d)))) == d
  {
    match d
    case Up =>
    case Down =>
    case Left =>
    case Right =>
  }
}

=== FILE: LevelEditor.dfy ===
/** The level editor's grid operations: placing a tile where the user clicked,
    and turning every interior source clockwise.

    An index past the end of `cells` throws in the editor; here it is the
    `Failure(IndexOutOfBounds)` outcome. Pixel coordinates arrive already
    truncated to `int` (the `double` cast is not represented) and the tile
    size, a configuration constant that is not part of this model, is the
    parameter `tileSize`. */
module LevelEditor {
  import opened Wrappers
  import opened Geometry
  import opened Cells

  /** The three palette entries: "Wall", "Cell" and "Source/Sink". */
  datatype CellSelection = WallTile | CellTile | TerminationTile

  datatype EditorError = IndexOutOfBounds

  /** Java's `/` on `int`, which truncates toward zero (Dafny's rounds down). */
  function JavaDiv(a: int, b: int): (q: int)
    requires b > 0
    ensures a >= 0 ==> q * b <= a < q * b + b
    ensures a < 0 ==> q * b - b < a <= q * b
  {
    if a >= 0 then a / b else -((-a) / b)
  }

  /** The grid position under pixel (x, y): `row = y / TILE_SIZE`, `col = x / TILE_SIZE`. */
  function ClickedCoord(x: int, y: int, tileSize: int): Coord
    requires tileSize > 0
  {
    Coord(JavaDiv(y, tileSize), JavaDiv(x, tileSize))
  }

  /** Every position other than `c` holds the same cell in both grids of the same shape. */
  predicate SameExcept(a: seq<seq<Cell>>, b: seq<seq<Cell>>, c: Coord)
  {
    && |a| == |b|
    && (forall i :: 0 <= i < |a| ==> |a[i]| == |b[i]|)
    && forall i, j :: 0 <= i < |a| && 0 <= j < |a[i]| && Coord(i, j) != c ==> a[i][j] == b[i][j]
  }

  /** Stores `cell` at its own coordinate, `cells[cell.coord.row][cell.coord.col] = cell`. */
  function SetTileByMapCoord(p: GameProperties, cell: Cell): (r: Result<GameProperties, EditorError>)
    ensures r.Failure? <==> !InBounds(p.cells, cell.coord)
    ensures r.Success? ==>
              && r.value.rows == p.rows && r.value.cols == p.cols && r.value.delay == p.delay
              && InBounds(r.value.cells, cell.coord) && At(r.value.cells, cell.coord) == cell
              && SameExcept(p.cells, r.value.cells, cell.coord)
  {
    var c := cell.coord;
    if !InBounds(p.cells, c) then Failure(IndexOutOfBounds)
    else Success(p.(cells := p.cells[c.row := p.cells[c.row][c.col := cell]]))
  }

  /** The cell a "Source/Sink" click creates at a non-corner position: a sink
      pointing off the grid on the border, an upward source inside. */
  function TerminationFor(rows: int, cols: int, c: Coord): (cell: Cell)
    ensures cell.Termination? && cell.coord == c
    ensures OnBorder(rows, cols, c.row, c.col) ==>
              cell.kind == Sink && cell.pointingTo == Outward(rows, cols, c.row, c.col)
    ensures !OnBorder(rows, cols, c.row, c.col) ==> cell.kind == Source && cell.pointingTo == Up
  {
    if c.row == 0 then Termination(c, Up, Sink)
    else if c.row == rows - 1 then Termination(c, Down, Sink)
    else if c.col == 0 then Termination(c, Left, Sink)
    else if c.col == cols - 1 then Termination(c, Right, Sink)
    else Termination(c, Up, Source)
  }

  /** A click with palette entry `sel` at pixel (x, y). Corners are classified
      with the `rows`/`cols` fields; the store itself indexes `cells`. */
  function SetTile(p: GameProperties, sel: CellSelection, x: int, y: int, tileSize: int)
    : (r: Result<GameProperties, EditorError>)
    requires tileSize > 0
    ensures r.Success? ==> r.value.rows == p.rows && r.value.cols == p.cols && r.value.delay == p.delay
    ensures r.Success? ==> SameExcept(p.cells, r.value.cells, ClickedCoord(x, y, tileSize))
    ensures r.Failure? <==> (&& !InBounds(p.cells, ClickedCoord(x, y, tileSize))
                             && (sel == WallTile || !IsCorner(p.rows, p.cols, JavaDiv(y, tileSize), JavaDiv(x, tileSize))))
  {
    var c := ClickedCoord(x, y, tileSize);
    match sel
    case WallTile => SetTileByMapCoord(p, Wall(c))
    case CellTile =>
      if IsCorner(p.rows, p.cols, c.row, c.col) then Success(p)
      else SetTileByMapCoord(p, Fillable(c))
    case TerminationTile =>
      if IsCorner(p.rows, p.cols, c.row, c.col) then Success(p)
      else SetTileByMapCoord(p, TerminationFor(p.rows, p.cols, c))
  }

  /** A "Cell" or "Source/Sink" click on a corner leaves the map exactly as it was. */
  lemma CornerClickIsNoOp(p: GameProperties, sel: CellSelection, x: int, y: int, tileSize: int)
    requires tileSize > 0 && sel != WallTile
    requires IsCorner(p.rows, p.cols, JavaDiv(y, tileSize), JavaDiv(x, tileSize))
    ensures SetTile(p, sel, x, y, tileSize) == Success(p)
  {
  }

  /** Where a click stores a cell, the cell stored is the one its palette entry
      and position call for. */
  lemma ClickedCellContents(p: GameProperties, sel: CellSelection, x: int, y: int, tileSize: int)
    requires tileSize > 0
    requires InBounds(p.cells, ClickedCoord(x, y, tileSize))
    ensures var c := ClickedCoord(x, y, tileSize);
            var r := SetTile(p, sel, x, y, tileSize);
            && r.Success?
            && (sel == WallTile ==> At(r.value.cells, c) == Wall(c))
            && (sel == CellTile && !IsCorner(p.rows, p.cols, c.row, c.col) ==> At(r.value.cells, c) == Fillable(c))
            && (sel == CellTile && IsCorner(p.rows, p.cols, c.row, c.col) ==> At(r.value.cells, c) == At(p.cells, c))
            && (sel == TerminationTile && !IsCorner(p.rows, p.cols, c.row, c.col) ==>
                  && (c.row == 0 ==> At(r.value.cells, c) == Termination(c, Up, Sink))
                  && (c.row != 0 && c.row == p.rows - 1 ==> At(r.value.cells, c) == Termination(c, Down, Sink))
                  && (c.row != 0 && c.row != p.rows - 1 && c.col == 0 ==>
                        At(r.value.cells, c) == Termination(c, Left, Sink))
                  && (c.row != 0 && c.row != p.rows - 1 && c.col != 0 && c.col == p.cols - 1 ==>
                        At(r.value.cells, c) == Termination(c, Right, Sink))
                  && (!OnBorder(p.rows, p.cols, c.row, c.col) ==> At(r.value.cells, c) == Termination(c, Up, Source)))
  {
  }

  /** The editor's map invariant: a rectangle whose cells know their own
      positions, with walls on the four corners, outward-pointing sinks as the
      only termination cells on the border, and sources as the only ones inside. */
  predicate EditorInvariant(p: GameProperties)
  {
    && WellShaped(p)
    && CoordsMatch(p.cells)
    && (forall i, j :: 0 <= i < p.rows && 0 <= j < p.cols && IsCorner(p.rows, p.cols, i, j) ==>
          p.cells[i][j].Wall?)
    && (forall i, j :: 0 <= i < p.rows && 0 <= j < p.cols && p.cells[i][j].Termination? ==>
          if OnBorder(p.rows, p.cols, i, j)
          then p.cells[i][j].kind == Sink && p.cells[i][j].pointingTo == Outward(p.rows, p.cols, i, j)
          else p.cells[i][j].kind == Source)
  }

  /** Every click keeps the editor invariant. */
  lemma SetTilePreservesInvariant(p: GameProperties, sel: CellSelection, x: int, y: int, tileSize: int)
    requires tileSize > 0 && EditorInvariant(p)
    ensures var r := SetTile(p, sel, x, y, tileSize);
            r.Success? ==> EditorInvariant(r.value)
  {
    var r := SetTile(p, sel, x, y, tileSize);
    if r.Success? {
      var c := ClickedCoord(x, y, tileSize);
      var q := r.value;
      forall i, j | 0 <= i < q.rows && 0 <= j < q.cols
        ensures q.cells[i][j].coord == Coord(i, j)
        ensures IsCorner(q.rows, q.cols, i, j) ==> q.cells[i][j].Wall?
      {
        if Coord(i, j) != c {
          assert q.cells[i][j] == p.cells[i][j];
        }
      }
    }
  }

  /** A termination cell inside the frame `[1, rows-1) x [1, cols-1)`. */
  predicate IsInteriorTermination(p: GameProperties, i: int, j: int)
    requires WellShaped(p)
  {
    1 <= i < p.rows - 1 && 1 <= j < p.cols - 1 && p.cells[i][j].Termination?
  }

  /** `toggleSourceTileRotation`: each interior termination cell is replaced by
      a source at the same position pointing one quarter turn clockwise;
      everything else stays. */
  function ToggleSourceRotation(p: GameProperties): (r: GameProperties)
    requires WellShaped(p)
    ensures WellShaped(r)
    ensures r.rows == p.rows && r.cols == p.cols && r.delay == p.delay
  {
    p.(cells := seq(p.rows, i requires 0 <= i < p.rows =>
                  seq(p.cols, j requires 0 <= j < p.cols =>
                    if IsInteriorTermination(p, i, j)
                    then Termination(Coord(i, j), RotateClockwise(p.cells[i][j].pointingTo), Source)
                    else p.cells[i][j])))
  }

  /** What one toggle does to each position, stated cell by cell. */
  lemma ToggleCellwise(p: GameProperties, i: int, j: int)
    requires WellShaped(p) && 0 <= i < p.rows && 0 <= j < p.cols
    ensures var q := ToggleSourceRotation(p);
            && (IsInteriorTermination(p, i, j) <==> IsInteriorTermination(q, i, j))
            && (IsInteriorTermination(p, i, j) ==>
                  && q.cells[i][j].kind == Source
                  && q.cells[i][j].coord == Coord(i, j)
                  && q.cells[i][j].pointingTo == RotateClockwise(p.cells[i][j].pointingTo))
            && (!IsInteriorTermination(p, i, j) ==> q.cells[i][j] == p.cells[i][j])
  {
  }

  /** Four toggles turn every interior termination all the way round: it ends
      as a source at its own position with its original direction, and every
      other cell is untouched. */
  lemma ToggleFourTimes(p: GameProperties)
    requires WellShaped(p)
    ensures var q := ToggleSourceRotation(ToggleSourceRotation(ToggleSourceRotation(ToggleSourceRotation(p))));
            && WellShaped(q) && q.rows == p.rows && q.cols == p.cols && q.delay == p.delay
            && forall i, j :: 0 <= i < p.rows && 0 <= j < p.cols ==>
                 if IsInteriorTermination(p, i, j)
                 then q.cells[i][j] == Termination(Coord(i, j), p.cells[i][j].pointingTo, Source)
                 else q.cells[i][j] == p.cells[i][j]
  {
    var p1 := ToggleSourceRotation(p);
    var p2 := ToggleSourceRotation(p1);
    var p3 := ToggleSourceRotation(p2);
    var q := ToggleSourceRotation(p3);
    forall i, j | 0 <= i < p.rows && 0 <= j < p.cols
      ensures if IsInteriorTermination(p, i, j)
              then q.cells[i][j] == Termination(Coord(i, j), p.cells[i][j].pointingTo, Source)
              else q.cells[i][j] == p.cells[i][j]
    {
      ToggleCellwise(p, i, j);
      ToggleCellwise(p1, i, j);
      ToggleCellwise(p2, i, j);
      ToggleCellwise(p3, i, j);
      if IsInteriorTermination(p, i, j) {
        DirectionLaws(p.cells[i][j].pointingTo);
      }
    }
  }

  /** On a map that keeps the editor invariant, four toggles give back the same map. */
  lemma ToggleFourTimesIsIdentity(p: GameProperties)
    requires EditorInvariant(p)
    ensures ToggleSourceRotation(ToggleSourceRotation(ToggleSourceRotation(ToggleSourceRotation(p)))) == p
  {
    ToggleFourTimes(p);
    var q := ToggleSourceRotation(ToggleSourceRotation(ToggleSourceRotation(ToggleSourceRotation(p))));
    assert forall i :: 0 <= i < p.rows ==> q.cells[i] == p.cells[i];
  }

  /** Toggling keeps the editor invariant. */
  lemma TogglePreservesInvariant(p: GameProperties)
    requires EditorInvariant(p)
    ensures EditorInvariant(ToggleSourceRotation(p))
  {
    var q := ToggleSourceRotation(p);
    forall i, j | 0 <= i < q.rows && 0 <= j < q.cols
      ensures q.cells[i][j].coord == Coord(i, j)
    {
      ToggleCellwise(p, i, j);
    }
  }
}

=== FILE: LevelManager.dfy ===
/** The level list: the names of the map files in the map directory, and the
    currently selected level.

    Directory walking is not represented: the listing `Files.walk` would yield
    is an input, one entry per path with its file name and whether it is a
    regular file, or `None` when the walk throws `IOException`. */
module LevelManager {
  import opened Wrappers
  import opened NameOrder

  datatype LevelError = IllegalArgument | IllegalState

  /** `levelNames` and the value of `curLevelNameProperty` (`None` for null). */
  datatype Manager = Manager(levelNames: seq<string>, currentLevel: Option<string>)

  datatype PathEntry = PathEntry(fileName: string, isRegularFile: bool)

  const MapExtension: string := ".map"

  predicate EndsWith(s: string, suffix: string)
  {
    |s| >= |suffix| && s[|s| - |suffix|..] == suffix
  }

  /** An entry the loader keeps: a regular file whose name ends in ".map". */
  predicate IsMapFile(e: PathEntry)
  {
    e.isRegularFile && EndsWith(e.fileName, MapExtension)
  }

  /** The file names of the kept entries, in listing order. */
  function MapFileNames(entries: seq<PathEntry>): (names: seq<string>)
    ensures |names| <= |entries|
    ensures forall n :: n in names <==> exists e :: e in entries && IsMapFile(e) && e.fileName == n
  {
    if |entries| == 0 then []
    else
      var rest := MapFileNames(entries[1..]);
      assert forall e :: e in entries <==> e == entries[0] || e in entries[1..];
      if IsMapFile(entries[0]) then [entries[0].fileName] + rest else rest
  }

  /** `loadLevelNamesFromDisk`: the kept names sorted by `String.compareTo`, or
      nothing at all when the directory cannot be read. */
  function LoadLevelNames(listing: Option<seq<PathEntry>>): (names: seq<string>)
    ensures listing.None? ==> names == []
    ensures listing.Some? ==> multiset(names) == multiset(MapFileNames(listing.value))
    ensures Sorted(names)
    ensures forall n :: n in names ==> EndsWith(n, MapExtension)
  {
    match listing
    case None => []
    case Some(entries) =>
      var names := SortNames(MapFileNames(entries));
      SortNamesCorrect(MapFileNames(entries));
      SameMembers(names, MapFileNames(entries));
      names
  }

  lemma SameMembers(a: seq<string>, b: seq<string>)
    requires multiset(a) == multiset(b)
    ensures forall x :: x in a <==> x in b
  {
    assert forall x :: x in a <==> x in multiset(a);
    assert forall x :: x in b <==> x in multiset(b);
  }

  /** `setMapDirectory`: replaces the level list; the selection is kept.
      An unreadable directory leaves the list empty. */
  function SetMapDirectory(m: Manager, listing: Option<seq<PathEntry>>): (r: Manager)
    ensures r.currentLevel == m.currentLevel
    ensures Sorted(r.levelNames)
    ensures listing.Some? ==> multiset(r.levelNames) == multiset(MapFileNames(listing.value))
    ensures listing.None? ==> r.levelNames == []
    ensures forall n :: n in r.levelNames ==> EndsWith(n, MapExtension)
  {
    m.(levelNames := LoadLevelNames(listing))
  }

  /** `setLevel`: a null or empty name is rejected and nothing changes;
      any other name becomes the current level as given. */
  function SetLevel(m: Manager, name: Option<string>): (r: Result<Manager, LevelError>)
    ensures r.Failure? <==> name.None? || name.value == ""
    ensures r.Failure? ==> r.error == IllegalArgument
    ensures r.Success? ==> r.value.levelNames == m.levelNames && r.value.currentLevel == name
  {
    if name.None? || name.value == "" then Failure(IllegalArgument)
    else Success(m.(currentLevel := name))
  }

  /** `k` is the first position of `x` in `s`. */
  predicate FirstIndex(s: seq<string>, x: string, k: int)
  {
    0 <= k < |s| && s[k] == x && forall i :: 0 <= i < k ==> s[i] != x
  }

  /** `List.indexOf`: the first position holding `x`, or -1. */
  function IndexOf(s: seq<string>, x: string): (k: int)
    ensures -1 <= k < |s|
    ensures k == -1 <==> x !in s
    ensures k >= 0 ==> FirstIndex(s, x, k)
  {
    if |s| == 0 then -1
    else if s[0] == x then 0
    else
      var k := IndexOf(s[1..], x);
      if k == -1 then -1 else k + 1
  }

  /** `getAndSetNextLevel`: moves the selection to the name after the first
      occurrence of the current one and returns it; at the last name returns
      null (`None`) and keeps the selection; throws when the current name is
      null or not listed. The list itself never changes. */
  function GetAndSetNextLevel(m: Manager): (r: Result<(Manager, Option<string>), LevelError>)
    ensures r.Failure? <==> m.currentLevel.None? || m.currentLevel.value !in m.levelNames
    ensures r.Failure? ==> r.error == IllegalState
    ensures r.Success? ==> r.value.0.levelNames == m.levelNames
    ensures r.Success? && r.value.1.None? ==> r.value.0 == m
    ensures r.Success? ==>
              forall k :: FirstIndex(m.levelNames, m.currentLevel.value, k) ==>
                && (k < |m.levelNames| - 1 ==>
                      r.value.1 == Some(m.levelNames[k + 1]) && r.value.0.currentLevel == Some(m.levelNames[k + 1]))
                && (k == |m.levelNames| - 1 ==> r.value.1.None?)
  {
    var k := if m.currentLevel.None? then -1 else IndexOf(m.levelNames, m.currentLevel.value);
    if k == -1 then Failure(IllegalState)
    else if k < |m.levelNames| - 1 then
      Success((m.(currentLevel := Some(m.levelNames[k + 1])), Some(m.levelNames[k + 1])))
    else Success((m, None))
  }

  predicate Distinct(s: seq<string>)
  {
    forall i, j :: 0 <= i < j < |s| ==> s[i] != s[j]
  }

  /** Applies `getAndSetNextLevel` `n` times, stopping at the first failure or null. */
  function Advance(m: Manager, n: nat): Result<Manager, LevelError>
    decreases n
  {
    if n == 0 then Success(m)
    else match GetAndSetNextLevel(m)
      case Failure(e) => Failure(e)
      case Success((m', next)) => if next.None? then Success(m') else Advance(m', n - 1)
  }

  /** With distinct names, the level after `names[i]` is `names[i + 1]`. */
  lemma NextOfListed(names: seq<string>, i: nat)
    requires Distinct(names) && i + 1 < |names|
    ensures GetAndSetNextLevel(Manager(names, Some(names[i]))) ==
            Success((Manager(names, Some(names[i + 1])), Some(names[i + 1])))
  {
    assert IndexOf(names, names[i]) == i;
  }

  /** With distinct names (file names in one directory are), stepping `n`
      times from the first level selects the `n`-th level. */
  lemma {:induction false} AdvanceVisitsInOrder(names: seq<string>, i: nat, n: nat)
    requires Distinct(names) && i + n < |names|
    ensures Advance(Manager(names, Some(names[i])), n) == Success(Manager(names, Some(names[i + n])))
    decreases n
  {
    if n > 0 {
      NextOfListed(names, i);
      AdvanceVisitsInOrder(names, i + 1, n - 1);
    }
  }

  /** With distinct names, asking for the level after the last one gives null. */
  lemma LastLevelHasNoNext(names: seq<string>)
    requires Distinct(names) && |names| > 0
    ensures GetAndSetNextLevel(Manager(names, Some(names[|names| - 1]))) ==
            Success((Manager(names, Some(names[|names| - 1])), None))
  {
    assert IndexOf(names, names[|names| - 1]) == |names| - 1;
  }

  /** Names loaded from one directory listing are distinct when the listing's
      file names are. */
  lemma LoadedNamesDistinct(entries: seq<PathEntry>)
    requires forall i, j :: 0 <= i < j < |entries| ==> entries[i].fileName != entries[j].fileName
    ensures Distinct(LoadLevelNames(Some(entries)))
  {
    var names := LoadLevelNames(Some(entries));
    MapFileNamesDistinct(entries);
    forall i, j | 0 <= i < j < |names| ensures names[i] != names[j] {
      if names[i] == names[j] {
        MultisetCountTwo(names, i, j);
        assert multiset(MapFileNames(entries))[names[i]] >= 2;
        DistinctCountOne(MapFileNames(entries), names[i]);
      }
    }
  }

  lemma {:induction false} MapFileNamesDistinct(entries: seq<PathEntry>)
    requires forall i, j :: 0 <= i < j < |entries| ==> entries[i].fileName != entries[j].fileName
    ensures Distinct(MapFileNames(entries))
  {
    if |entries| > 0 {
      MapFileNamesDistinct(entries[1..]);
      var rest := MapFileNames(entries[1..]);
      if IsMapFile(entries[0]) {
        assert entries[0].fileName !in rest;
      }
    }
  }

  lemma MultisetCountTwo(s: seq<string>, i: int, j: int)
    requires 0 <= i < j < |s| && s[i] == s[j]
    ensures multiset(s)[s[i]] >= 2
  {
    assert s == s[..j] + [s[j]] + s[j + 1..];
    assert s[i] in multiset(s[..j]) by { assert s[..j][i] == s[i]; }
  }

  lemma {:induction false} DistinctCountOne(s: seq<string>, x: string)
    requires Distinct(s)
    ensures multiset(s)[x] <= 1
  {
    if |s| > 0 {
      assert s == [s[0]] + s[1..];
      DistinctCountOne(s[1..], x);
      if s[0] == x {
        assert x !in s[1..];
      }
    }
  }
}

=== FILE: NameOrder.dfy ===
/** Java's `String.compareTo` on file names, and sorting by it.

    Names are sequences of `char` compared by character code; Java compares
    UTF-16 code units, so the two orders can differ only for names containing
    characters outside the Basic Multilingual Plane. */
module NameOrder {

  /** The value `a.compareTo(b)` returns: the difference of the first pair of
      differing characters, or else the difference of the lengths. */
  function CompareTo(a: string, b: string): (r: int)
    ensures r == 0 <==> a == b
    ensures |a| <= |b| && a == b[..|a|] ==> r == |a| - |b|
    ensures |b| <= |a| && b == a[..|b|] ==> r == |a| - |b|
    decreases |a|
  {
    if |a| == 0 || |b| == 0 then |a| - |b|
    else if a[0] != b[0] then a[0] as int - b[0] as int
    else
      CompareTo(a[1..], b[1..])
  }

  /** At the first index where two names differ, `compareTo` returns the
      difference of the two characters there. */
  lemma {:induction false} CompareToFirstDifference(a: string, b: string, k: nat)
    requires k < |a| && k < |b| && a[..k] == b[..k] && a[k] != b[k]
    ensures CompareTo(a, b) == a[k] as int - b[k] as int
    decreases k
  {
    if k > 0 {
      assert a[0] == a[..k][0] == b[..k][0] == b[0];
      assert a[1..][..k - 1] == a[..k][1..] == b[..k][1..] == b[1..][..k - 1];
      CompareToFirstDifference(a[1..], b[1..], k - 1);
    }
  }

  /** `a` sorts no later than `b`. */
  predicate Le(a: string, b: string)
  {
    CompareTo(a, b) <= 0
  }

  /** Swapping the arguments negates the result, and zero means equal strings. */
  lemma {:induction false} CompareToAntisymmetric(a: string, b: string)
    ensures CompareTo(a, b) == -CompareTo(b, a)
    ensures CompareTo(a, b) == 0 <==> a == b
    decreases |a|
  {
    if |a| > 0 && |b| > 0 && a[0] == b[0] {
      CompareToAntisymmetric(a[1..], b[1..]);
      if a[1..] == b[1..] {
        assert a == [a[0]] + a[1..] && b == [b[0]] + b[1..];
      }
    }
  }

  lemma {:induction false} LeTransitive(a: string, b: string, c: string)
    requires Le(a, b) && Le(b, c)
    ensures Le(a, c)
    decreases |a|
  {
    if |a| > 0 && |b| > 0 && |c| > 0 && a[0] == b[0] && b[0] == c[0] {
      LeTransitive(a[1..], b[1..], c[1..]);
    }
  }

  lemma LeTotal(a: string, b: string)
    ensures Le(a, b) || Le(b, a)
  {
    CompareToAntisymmetric(a, b);
  }

  predicate Sorted(s: seq<string>)
  {
    forall i, j :: 0 <= i < j < |s| ==> Le(s[i], s[j])
  }

  /** Puts `x` before the first element it sorts no later than. */
  function Insert(x: string, s: seq<string>): (r: seq<string>)
    ensures multiset(r) == multiset(s) + multiset{x}
  {
    if |s| == 0 then [x]
    else if Le(x, s[0]) then [x] + s
    else
      assert s == [s[0]] + s[1..];
      [s[0]] + Insert(x, s[1..])
  }

  /** Sorts ascending by `CompareTo` (insertion sort; any correct sort gives
      the same list, see `SortedPermutationUnique`). */
  function SortNames(s: seq<string>): (r: seq<string>)
    ensures multiset(r) == multiset(s)
  {
    if |s| == 0 then []
    else
      assert s == [s[0]] + s[1..];
      Insert(s[0], SortNames(s[1..]))
  }

  lemma {:induction false} InsertSorted(x: string, s: seq<string>)
    requires Sorted(s)
    ensures Sorted(Insert(x, s))
  {
    if |s| > 0 {
      if Le(x, s[0]) {
        forall j | 0 <= j < |s| ensures Le(x, s[j]) {
          if j > 0 { LeTransitive(x, s[0], s[j]); }
        }
      } else {
        LeTotal(x, s[0]);
        InsertSorted(x, s[1..]);
        var t := Insert(x, s[1..]);
        forall j | 0 <= j < |t| ensures Le(s[0], t[j]) {
          assert t[j] in multiset(t);
          assert t[j] == x || t[j] in multiset(s[1..]);
          if t[j] != x {
            var k :| 0 <= k < |s[1..]| && s[1..][k] == t[j];
            assert s[k + 1] == t[j];
          }
        }
      }
    }
  }

  /** The result of `SortNames` is sorted and is a permutation of its input. */
  lemma {:induction false} SortNamesCorrect(s: seq<string>)
    ensures Sorted(SortNames(s)) && multiset(SortNames(s)) == multiset(s)
  {
    if |s| > 0 {
      SortNamesCorrect(s[1..]);
      InsertSorted(s[0], SortNames(s[1..]));
    }
  }

  /** The first elements of two sorted permutations of each other agree. */
  lemma SortedHeadsAgree(a: seq<string>, b: seq<string>)
    requires Sorted(a) && Sorted(b) && multiset(a) == multiset(b) && |a| > 0
    ensures |b| > 0 && a[0] == b[0]
  {
    assert a[0] in multiset(b);
    assert b[0] in multiset(a);
    var i :| 0 <= i < |b| && b[i] == a[0];
    var j :| 0 <= j < |a| && a[j] == b[0];
    CompareToAntisymmetric(a[0], a[0]);
    CompareToAntisymmetric(b[0], b[0]);
    assert Le(b[0], a[0]) by { if i > 0 { assert Le(b[0], b[i]); } }
    assert Le(a[0], b[0]) by { if j > 0 { assert Le(a[0], a[j]); } }
    CompareToAntisymmetric(a[0], b[0]);
  }

  /** Two sorted permutations of the same names are the same list, so the
      order the level list takes does not depend on which sort produced it. */
  lemma {:induction false} SortedPermutationUnique(a: seq<string>, b: seq<string>)
    requires Sorted(a) && Sorted(b) && multiset(a) == multiset(b)
    ensures a == b
    decreases |a|
  {
    assert |a| == |multiset(a)| == |multiset(b)| == |b|;
    if |a| > 0 {
      SortedHeadsAgree(a, b);
      assert a == [a[0]] + a[1..] && b == [b[0]] + b[1..];
      assert multiset(a[1..]) == multiset(b[1..]) by {
        assert multiset(a) == multiset{a[0]} + multiset(a[1..]);
        assert multiset(b) == multiset{b[0]} + multiset(b[1..]);
        assert multiset(a[1..]) == multiset(a) - multiset{a[0]};
        assert multiset(b[1..]) == multiset(b) - multiset{b[0]};
      }
      SortedPermutationUnique(a[1..], b[1..]);
    }
  }
}

=== FILE: Serializer.dfy ===
/** The map-file writer: `GameProperties` to the lines of a map file.

    The file is a sequence of lines; the platform line separator and the
    `PrintWriter` plumbing are not represented. `Cell.toSingleChar` is not part
    of this model, so the character code of a cell is the parameter `toChar`. */
module Serializer {
  import opened Cells
  import opened Decimal
  import opened Wrappers

  const RowsLabel: string := "# rows"
  const ColsLabel: string := "# cols"
  const DelayLabel: string := "# delay before first flow"
  const MapLabel: string := "# map"

  /** Number of lines written before the first grid row. */
  const HeaderLines: nat := 7

  /** One grid row: the character of each cell, in column order. */
  function RowLine(row: seq<Cell>, toChar: Cell -> char): (line: string)
    ensures |line| == |row|
    ensures forall j :: 0 <= j < |row| ==> line[j] == toChar(row[j])
  {
    seq(|row|, j requires 0 <= j < |row| => toChar(row[j]))
  }

  /** The lines `serializeGameProp` prints: four labelled sections and one line
      per row of `prop.cells`. The optional pre-placed-pipe section is not
      written. */
  function Serialize(prop: GameProperties, toChar: Cell -> char): (lines: seq<string>)
    ensures |lines| == HeaderLines + |prop.cells|
    ensures lines[0] == RowsLabel && ParseDecimal(lines[1]) == Some(prop.rows)
    ensures lines[2] == ColsLabel && ParseDecimal(lines[3]) == Some(prop.cols)
    ensures lines[4] == DelayLabel && ParseDecimal(lines[5]) == Some(prop.delay)
    ensures lines[6] == MapLabel
    ensures lines[1] == IntToDecimal(prop.rows) && lines[3] == IntToDecimal(prop.cols)
            && lines[5] == IntToDecimal(prop.delay)
    ensures forall i :: 0 <= i < |prop.cells| ==> |lines[HeaderLines + i]| == |prop.cells[i]|
    ensures forall i, j :: 0 <= i < |prop.cells| && 0 <= j < |prop.cells[i]| ==>
              lines[HeaderLines + i][j] == toChar(prop.cells[i][j])
  {
    DecimalRoundTrip(prop.rows);
    DecimalRoundTrip(prop.cols);
    DecimalRoundTrip(prop.delay);
    var header := [RowsLabel, IntToDecimal(prop.rows),
                   ColsLabel, IntToDecimal(prop.cols),
                   DelayLabel, IntToDecimal(prop.delay),
                   MapLabel];
    header + seq(|prop.cells|, i requires 0 <= i < |prop.cells| => RowLine(prop.cells[i], toChar))
  }

  /** Two properties that differ in any header number never serialize alike. */
  lemma SerializeHeaderInjective(p: GameProperties, q: GameProperties, toChar: Cell -> char)
    requires Serialize(p, toChar) == Serialize(q, toChar)
    ensures p.rows == q.rows && p.cols == q.cols && p.delay == q.delay
    ensures |p.cells| == |q.cells|
  {
  }

  /** The grid block's shape comes from `cells` alone: changing the `rows` and
      `cols` fields changes only the header. */
  lemma MapBlockIgnoresDimensionFields(p: GameProperties, rows: int, cols: int, toChar: Cell -> char)
    ensures Serialize(p, toChar)[HeaderLines..] == Serialize(p.(rows := rows, cols := cols), toChar)[HeaderLines..]
  {
    var a := Serialize(p, toChar);
    var b := Serialize(p.(rows := rows, cols := cols), toChar);
    forall k | HeaderLines <= k < |a|
      ensures a[k] == b[k]
    {
      assert |a[k]| == |b[k]|;
    }
  }
}

=== FILE: Settings.dfy ===
/** The settings screen: validation of the four numeric fields and the
    write-back of the defaults new games start from.

    The defaults live in static fields of the game and timer classes, which are
    not part of this model; here they are the `Defaults` value a write-back
    returns. The scene switch after the write-back is not represented. */
module Settings {
  import opened Wrappers

  const MsgBadRowNum: string := "Row number should be at least 2!"
  const MsgBadColNum: string := "Column number should be at least 2!"
  const MsgBadDelayNum: string := "Delay value should be a positive integer!"
  const MsgBadFlowNum: string := "Flow rate should be a positive integer!"

  /** The values in the rows, columns, delay and flow-rate text fields. */
  datatype Fields = Fields(rows: int, cols: int, delay: int, flow: int)

  /** Default rows, columns, flow delay and flow duration. */
  datatype Defaults = Defaults(rows: int, cols: int, delay: int, flowDuration: int)

  /** A button an alert's result can hold. The error alert offers only OK. */
  datatype ButtonType = OkButton | OtherButton

  /** `alert.getResult()` is null when the alert is closed without pressing a
      button, and calling `equals` on it throws `NullPointerException`. */
  datatype SettingsError = NullAlertResult

  /** Settings a new game can start from. */
  predicate Acceptable(f: Fields)
  {
    f.rows >= 2 && f.cols >= 2 && f.delay >= 1 && f.flow >= 1
  }

  /** `validate`: the first failing check, in the order rows, columns, delay, flow rate. */
  function Validate(f: Fields): (r: Option<string>)
    ensures r == Some(MsgBadRowNum) <==> f.rows < 2
    ensures r == Some(MsgBadColNum) <==> f.rows >= 2 && f.cols < 2
    ensures r == Some(MsgBadDelayNum) <==> f.rows >= 2 && f.cols >= 2 && f.delay <= 0
    ensures r == Some(MsgBadFlowNum) <==> f.rows >= 2 && f.cols >= 2 && f.delay >= 1 && f.flow <= 0
    ensures r.None? <==> Acceptable(f)
  {
    if f.rows < 2 then Some(MsgBadRowNum)
    else if f.cols < 2 then Some(MsgBadColNum)
    else if f.delay <= 0 then Some(MsgBadDelayNum)
    else if f.flow <= 0 then Some(MsgBadFlowNum)
    else None
  }

  /** `returnToMainMenu(writeback)`: the defaults after leaving the screen.
      `alert` is the error alert's result, `None` when it was closed without a
      button. A failed validation returns early when the result is OK and
      throws when it is null; otherwise the field values are written back. */
  function ReturnToMainMenu(d: Defaults, f: Fields, writeback: bool, alert: Option<ButtonType>): (r: Result<Defaults, SettingsError>)
    ensures !writeback ==> r == Success(d)
    ensures writeback && Acceptable(f) ==> r == Success(Defaults(f.rows, f.cols, f.delay, f.flow))
    ensures writeback && !Acceptable(f) && alert == Some(OkButton) ==> r == Success(d)
    ensures writeback && !Acceptable(f) && alert == Some(OtherButton) ==>
              r == Success(Defaults(f.rows, f.cols, f.delay, f.flow))
    ensures r.Failure? <==> writeback && !Acceptable(f) && alert.None?
    ensures r.Success? ==> r.value == d || r.value == Defaults(f.rows, f.cols, f.delay, f.flow)
  {
    if writeback then
      if Validate(f).Some? then
        match alert
        case None => Failure(NullAlertResult)
        case Some(OkButton) => Success(d)
        case Some(OtherButton) => Success(Defaults(f.rows, f.cols, f.delay, f.flow))
      else Success(Defaults(f.rows, f.cols, f.delay, f.flow))
    else Success(d)
  }

  predicate DefaultsAcceptable(d: Defaults)
  {
    Acceptable(Fields(d.rows, d.cols, d.delay, d.flowDuration))
  }

  /** With the answers the OK-only alert can give (OK, or closed without a
      button), acceptable defaults stay acceptable: either the invalid values
      are refused or the call throws before writing anything. */
  lemma WriteBackKeepsDefaultsAcceptable(d: Defaults, f: Fields, writeback: bool, alert: Option<ButtonType>)
    requires DefaultsAcceptable(d)
    requires alert != Some(OtherButton)
    ensures var r := ReturnToMainMenu(d, f, writeback, alert);
            r.Failure? || DefaultsAcceptable(r.value)
  {
  }
}

=== FILE: Stopwatch.dfy ===
/** The stopwatch text of the gameplay info pane: a number of elapsed seconds
    shown as "MM:SS", minutes and seconds each two digits. Whole hours are not
    shown. */
module Stopwatch {
  import opened Decimal

  /** `%02d` for a value below 100. */
  function Pad2(n: nat): (r: string)
    requires n < 100
    ensures |r| == 2 && AllDigits(r) && DigitsValue(r) == n
  {
    var r := [DigitChar(n / 10), DigitChar(n % 10)];
    assert r[..1] == [DigitChar(n / 10)] && r[..1][..0] == [];
    assert DigitValue(DigitChar(n / 10)) == n / 10;
    assert DigitValue(DigitChar(n % 10)) == n % 10;
    assert DigitsValue(r[..1]) == n / 10;
    r
  }

  /** `format(s)`: minutes part and seconds part of an `s`-second duration.
      Negative durations are not modelled. */
  function Format(s: int): (r: string)
    requires s >= 0
    ensures |r| == 5 && r[2] == ':'
    ensures AllDigits(r[..2]) && AllDigits(r[3..])
    ensures DigitsValue(r[..2]) == (s / 60) % 60 && DigitsValue(r[3..]) == s % 60
    ensures DigitsValue(r[..2]) < 60 && DigitsValue(r[3..]) < 60
  {
    var minutes := (s / 60) % 60;
    var seconds := s % 60;
    var r := Pad2(minutes) + ":" + Pad2(seconds);
    assert r[..2] == Pad2(minutes) && r[3..] == Pad2(seconds);
    r
  }

  /** Reads a "MM:SS" text back as a number of seconds. */
  function ClockValue(t: string): nat
    requires |t| == 5 && AllDigits(t[..2]) && AllDigits(t[3..])
  {
    DigitsValue(t[..2]) * 60 + DigitsValue(t[3..])
  }

  /** The text shows the duration modulo one hour. */
  lemma FormatReadsBack(s: int)
    requires s >= 0
    ensures ClockValue(Format(s)) == s % 3600
  {
    var minutes := (s / 60) % 60;
    var seconds := s % 60;
    var r := Format(s);
    assert r[..2] == Pad2(minutes) && r[3..] == Pad2(seconds);
    assert s == (s / 60) * 60 + seconds;
    assert s / 60 == (s / 3600) * 60 + minutes;
  }

  /** Whole hours are dropped: one hour later the text is the same. */
  lemma FormatDropsHours(s: int)
    requires s >= 0
    ensures Format(s + 3600) == Format(s)
  {
    var q := s / 60;
    var t := s % 60;
    assert s + 3600 == (q + 60) * 60 + t;
    assert (s + 3600) / 60 == q + 60 && (s + 3600) % 60 == t;
    assert (q + 60) % 60 == q % 60;
  }

  /** Within the first hour different durations give different texts. */
  lemma FormatInjectiveWithinHour(a: int, b: int)
    requires 0 <= a < 3600 && 0 <= b < 3600
    requires Format(a) == Format(b)
    ensures a == b
  {
    FormatReadsBack(a);
    FormatReadsBack(b);
  }
}

=== FILE: Validity.dfy ===
/** The level editor's map checker, `checkValidity`, and the save path that
    consults it.

    The checker scans the grid with fixed index ranges: the sink scan visits
    `(i, 0)` and `(i, cols-1)` for `i` in `[0, rows-1)`, then `(0, i)` and
    `(rows-1, i)` for `i` in `[0, cols-1)`; the source scan visits the interior
    rectangle row by row. Any termination cell found on the border counts as
    a sink and any found in the interior counts as a source, whatever its
    type; the LAST one found is the one whose neighbour is checked. Reading
    outside `cells` throws in the editor and is `Failure(IndexOutOfBounds)` here. */
module Validity {
  import opened Wrappers
  import opened Geometry
  import opened Cells
  import opened LevelEditor
  import opened Serializer

  const MsgMissingSource: string := "Source tile is missing!"
  const MsgMissingSink: string := "Sink tile is missing!"
  const MsgBadDims: string := "Map size must be at least 2x2!"
  const MsgBadDelay: string := "Delay must be a positive value!"
  const MsgSourceToWall: string := "Source tile is blocked by a wall!"
  const MsgSinkToWall: string := "Sink tile is blocked by a wall!"

  /** `(i, 0), (i, cols-1)` for each `i` in `[lo, hi)`, in that order. */
  function SideScan(lo: int, hi: int, cols: int): (s: seq<Coord>)
    ensures forall c :: c in s <==> lo <= c.row < hi && (c.col == 0 || c.col == cols - 1)
    decreases hi - lo
  {
    if lo >= hi then [] else [Coord(lo, 0), Coord(lo, cols - 1)] + SideScan(lo + 1, hi, cols)
  }

  /** `(0, i), (rows-1, i)` for each `i` in `[lo, hi)`, in that order. */
  function EdgeScan(lo: int, hi: int, rows: int): (s: seq<Coord>)
    ensures forall c :: c in s <==> lo <= c.col < hi && (c.row == 0 || c.row == rows - 1)
    decreases hi - lo
  {
    if lo >= hi then [] else [Coord(0, lo), Coord(rows - 1, lo)] + EdgeScan(lo + 1, hi, rows)
  }

  /** `(row, j)` for each `j` in `[lo, hi)`. */
  function RowScan(row: int, lo: int, hi: int): (s: seq<Coord>)
    ensures forall c :: c in s <==> c.row == row && lo <= c.col < hi
    decreases hi - lo
  {
    if lo >= hi then [] else [Coord(row, lo)] + RowScan(row, lo + 1, hi)
  }

  /** The rectangle `[lo, rowHi) x [1, colHi)`, row by row. */
  function InteriorScan(lo: int, rowHi: int, colHi: int): (s: seq<Coord>)
    ensures forall c :: c in s <==> lo <= c.row < rowHi && 1 <= c.col < colHi
    decreases rowHi - lo
  {
    if lo >= rowHi then [] else RowScan(lo, 1, colHi) + InteriorScan(lo + 1, rowHi, colHi)
  }

  /** Every position the sink scan visits, in visiting order. */
  function SinkScan(p: GameProperties): seq<Coord>
  {
    SideScan(0, p.rows - 1, p.cols) + EdgeScan(0, p.cols - 1, p.rows)
  }

  /** The source scan as written: `[1, rows-2) x [1, cols-2)`. */
  function SourceScan(p: GameProperties): seq<Coord>
  {
    InteriorScan(1, p.rows - 2, p.cols - 2)
  }

  /** The source scan over the whole interior, `[1, rows-1) x [1, cols-1)`. */
  function CorrectedSourceScan(p: GameProperties): seq<Coord>
  {
    InteriorScan(1, p.rows - 1, p.cols - 1)
  }

  /** The `k`-th position the side loop started at row `lo` visits. */
  function SideVisit(lo: int, cols: int, k: nat): Coord
  {
    Coord(lo + k / 2, if k % 2 == 0 then 0 else cols - 1)
  }

  /** The `k`-th position the edge loop started at column `lo` visits. */
  function EdgeVisit(lo: int, rows: int, k: nat): Coord
  {
    Coord(if k % 2 == 0 then 0 else rows - 1, lo + k / 2)
  }

  /** The side loop visits `(i, 0)` then `(i, cols-1)` for each `i` in turn. */
  lemma {:induction false} SideScanOrder(lo: int, hi: int, cols: int)
    ensures var s := SideScan(lo, hi, cols);
            && |s| == (if lo <= hi then 2 * (hi - lo) else 0)
            && forall k :: 0 <= k < |s| ==> s[k] == SideVisit(lo, cols, k)
    decreases hi - lo
  {
    if lo < hi {
      SideScanOrder(lo + 1, hi, cols);
      var rest := SideScan(lo + 1, hi, cols);
      var s := SideScan(lo, hi, cols);
      assert s == [Coord(lo, 0), Coord(lo, cols - 1)] + rest;
      forall k | 2 <= k < |s|
        ensures s[k] == SideVisit(lo, cols, k)
      {
        assert s[k] == rest[k - 2];
        assert (k - 2) / 2 == k / 2 - 1 && (k - 2) % 2 == k % 2;
        assert SideVisit(lo + 1, cols, k - 2) == SideVisit(lo, cols, k);
      }
    }
  }

  /** The edge loop visits `(0, i)` then `(rows-1, i)` for each `i` in turn. */
  lemma {:induction false} EdgeScanOrder(lo: int, hi: int, rows: int)
    ensures var s := EdgeScan(lo, hi, rows);
            && |s| == (if lo <= hi then 2 * (hi - lo) else 0)
            && forall k :: 0 <= k < |s| ==> s[k] == EdgeVisit(lo, rows, k)
    decreases hi - lo
  {
    if lo < hi {
      EdgeScanOrder(lo + 1, hi, rows);
      var rest := EdgeScan(lo + 1, hi, rows);
      var s := EdgeScan(lo, hi, rows);
      assert s == [Coord(0, lo), Coord(rows - 1, lo)] + rest;
      forall k | 2 <= k < |s|
        ensures s[k] == EdgeVisit(lo, rows, k)
      {
        assert s[k] == rest[k - 2];
        assert (k - 2) / 2 == k / 2 - 1 && (k - 2) % 2 == k % 2;
        assert EdgeVisit(lo + 1, rows, k - 2) == EdgeVisit(lo, rows, k);
      }
    }
  }

  /** The inner source loop visits the columns of its row left to right. */
  lemma {:induction false} RowScanOrder(row: int, lo: int, hi: int)
    ensures var s := RowScan(row, lo, hi);
            && |s| == (if lo <= hi then hi - lo else 0)
            && forall k :: 0 <= k < |s| ==> s[k] == Coord(row, lo + k)
    decreases hi - lo
  {
    if lo < hi {
      RowScanOrder(row, lo + 1, hi);
      var s := RowScan(row, lo, hi);
      assert s == [Coord(row, lo)] + RowScan(row, lo + 1, hi);
    }
  }

  /** `a` comes strictly before `b` in row-major order. */
  predicate RowMajorBefore(a: Coord, b: Coord)
  {
    a.row < b.row || (a.row == b.row && a.col < b.col)
  }

  /** The source loops visit the rectangle in row-major order: top row
      first, each row left to right. */
  lemma {:induction false} InteriorScanOrder(lo: int, rowHi: int, colHi: int)
    ensures forall k, m :: 0 <= k < m < |InteriorScan(lo, rowHi, colHi)| ==>
              RowMajorBefore(InteriorScan(lo, rowHi, colHi)[k], InteriorScan(lo, rowHi, colHi)[m])
    decreases rowHi - lo
  {
    if lo < rowHi {
      InteriorScanOrder(lo + 1, rowHi, colHi);
      RowScanOrder(lo, 1, colHi);
      var first := RowScan(lo, 1, colHi);
      var rest := InteriorScan(lo + 1, rowHi, colHi);
      var s := InteriorScan(lo, rowHi, colHi);
      assert s == first + rest;
      forall k, m | 0 <= k < m < |s|
        ensures RowMajorBefore(s[k], s[m])
      {
        if m < |first| {
          assert s[k] == first[k] && s[m] == first[m];
        } else if k < |first| {
          assert s[k] == first[k] && s[m] == rest[m - |first|] && s[m] in rest;
          assert s[k].row == lo && s[m].row >= lo + 1;
        } else {
          var k', m' := k - |first|, m - |first|;
          assert 0 <= k' < m' < |rest|;
          assert s[k] == rest[k'] && s[m] == rest[m'];
          assert RowMajorBefore(rest[k'], rest[m']);
        }
      }
    }
  }

  /** The `k`-th position the sink scan visits: the side loop's pairs
      `(i, 0), (i, cols-1)` come first, then the edge loop's pairs
      `(0, i), (rows-1, i)`. */
  function SinkVisit(rows: int, cols: int, k: nat): Coord
  {
    var side := if rows >= 1 then 2 * (rows - 1) else 0;
    if k < side then SideVisit(0, cols, k) else EdgeVisit(0, rows, k - side)
  }

  /** The whole sink scan in visiting order: the side loop completes
      before the edge loop starts. */
  lemma SinkScanOrder(p: GameProperties)
    ensures |SinkScan(p)| == (if p.rows >= 1 then 2 * (p.rows - 1) else 0) + (if p.cols >= 1 then 2 * (p.cols - 1) else 0)
    ensures forall k :: 0 <= k < |SinkScan(p)| ==> SinkScan(p)[k] == SinkVisit(p.rows, p.cols, k)
  {
    var side := SideScan(0, p.rows - 1, p.cols);
    var edge := EdgeScan(0, p.cols - 1, p.rows);
    SideScanOrder(0, p.rows - 1, p.cols);
    EdgeScanOrder(0, p.cols - 1, p.rows);
    var s := SinkScan(p);
    assert s == side + edge;
    assert |side| == if p.rows >= 1 then 2 * (p.rows - 1) else 0;
    forall k | 0 <= k < |side|
      ensures s[k] == SinkVisit(p.rows, p.cols, k)
    {
      assert s[k] == side[k];
    }
    forall k | |side| <= k < |s|
      ensures s[k] == SinkVisit(p.rows, p.cols, k)
    {
      assert s[k] == edge[k - |side|];
    }
  }

  predicate AllInBounds(cells: seq<seq<Cell>>, scan: seq<Coord>)
  {
    forall c :: c in scan ==> InBounds(cells, c)
  }

  /** Some visited position holds a termination cell. */
  predicate SomeTermination(cells: seq<seq<Cell>>, scan: seq<Coord>)
    requires AllInBounds(cells, scan)
  {
    exists c :: c in scan && At(cells, c).Termination?
  }

  /** The termination cell the scan meets last, if any. */
  function LastTermination(cells: seq<seq<Cell>>, scan: seq<Coord>): (r: Option<Cell>)
    requires AllInBounds(cells, scan)
    ensures r.None? <==> !SomeTermination(cells, scan)
    ensures r.Some? ==> r.value.Termination?
    ensures r.Some? ==> exists k :: 0 <= k < |scan| && r.value == At(cells, scan[k])
                                   && forall m :: k < m < |scan| ==> !At(cells, scan[m]).Termination?
  {
    if |scan| == 0 then None
    else
      var last := scan[|scan| - 1];
      if At(cells, last).Termination? then Some(At(cells, last))
      else
        var r := LastTermination(cells, scan[..|scan| - 1]);
        assert forall c :: c in scan ==> c in scan[..|scan| - 1] || c == last;
        r
  }

  /** The kept termination is met no earlier than any termination in the scan. */
  lemma LastTerminationNoEarlier(cells: seq<seq<Cell>>, scan: seq<Coord>, j: nat)
    requires AllInBounds(cells, scan) && j < |scan| && At(cells, scan[j]).Termination?
    ensures LastTermination(cells, scan).Some?
    ensures exists k :: j <= k < |scan| && LastTermination(cells, scan).value == At(cells, scan[k])
  {
    assert scan[j] in scan;
    var r := LastTermination(cells, scan);
    var k :| 0 <= k < |scan| && r.value == At(cells, scan[k])
             && forall m :: k < m < |scan| ==> !At(cells, scan[m]).Termination?;
    assert j <= k;
  }

  /** When the second part of a scan meets a termination, the kept one is
      from the second part. */
  lemma LaterPartWins(cells: seq<seq<Cell>>, first: seq<Coord>, second: seq<Coord>)
    requires AllInBounds(cells, first + second)
    requires exists c :: c in second && At(cells, c).Termination?
    ensures LastTermination(cells, first + second).Some?
    ensures exists c :: c in second && LastTermination(cells, first + second).value == At(cells, c)
  {
    var s := first + second;
    var c :| c in second && At(cells, c).Termination?;
    var j :| 0 <= j < |second| && second[j] == c;
    assert s[|first| + j] == c;
    LastTerminationNoEarlier(cells, s, |first| + j);
    var k :| |first| + j <= k < |s| && LastTermination(cells, s).value == At(cells, s[k]);
    assert s[k] == second[k - |first|];
  }

  /** A termination met by the edge loop wins over any met by the side loop:
      the sink whose neighbour is checked then lies on row 0 or row rows-1. */
  lemma EdgeLoopSinkWins(p: GameProperties)
    requires AllInBounds(p.cells, SinkScan(p))
    requires exists c :: c in EdgeScan(0, p.cols - 1, p.rows) && At(p.cells, c).Termination?
    ensures LastTermination(p.cells, SinkScan(p)).Some?
    ensures exists c :: c in EdgeScan(0, p.cols - 1, p.rows)
                        && LastTermination(p.cells, SinkScan(p)).value == At(p.cells, c)
  {
    LaterPartWins(p.cells, SideScan(0, p.rows - 1, p.cols), EdgeScan(0, p.cols - 1, p.rows));
  }

  /** Whether `cells[c.row][c.col] instanceof Wall`, or an index failure. */
  function WallAt(cells: seq<seq<Cell>>, c: Coord): (r: Result<bool, EditorError>)
    ensures r.Failure? <==> !InBounds(cells, c)
    ensures r.Success? ==> (r.value <==> At(cells, c).Wall?)
  {
    if InBounds(cells, c) then Success(At(cells, c).Wall?) else Failure(IndexOutOfBounds)
  }

  /** The position a source faces: one step in its pointing direction. */
  function Ahead(c: Cell): Coord
    requires c.Termination?
  {
    c.coord.Add(Offset(c.pointingTo))
  }

  /** The position behind a sink: one step against its pointing direction. */
  function Behind(c: Cell): Coord
    requires c.Termination?
  {
    c.coord.Add(Offset(Opposite(c.pointingTo)))
  }

  /** The first four checks all pass: a sink and a source were found, the
      size is at least 2x2 and the delay is positive. */
  predicate FirstFourPass(p: GameProperties, sources: seq<Coord>)
    requires AllInBounds(p.cells, SinkScan(p)) && AllInBounds(p.cells, sources)
  {
    && SomeTermination(p.cells, SinkScan(p)) && SomeTermination(p.cells, sources)
    && p.rows >= 2 && p.cols >= 2 && p.delay >= 1
  }

  /** The ordered checks of `checkValidity`, with the interior scan `sources`.
      Failed checks are reported in this order: missing sink, missing source,
      size below 2x2, delay not positive, source facing a wall, sink facing a wall. */
  function CheckWith(p: GameProperties, sources: seq<Coord>): (r: Result<Option<string>, EditorError>)
    ensures r.Success? ==> AllInBounds(p.cells, SinkScan(p)) && AllInBounds(p.cells, sources)
    ensures r == Success(None) ==>
              && p.rows >= 2 && p.cols >= 2 && p.delay >= 1
              && SomeTermination(p.cells, SinkScan(p)) && SomeTermination(p.cells, sources)
  {
    var sinks := SinkScan(p);
    if !AllInBounds(p.cells, sinks) || !AllInBounds(p.cells, sources) then Failure(IndexOutOfBounds)
    else
      var sink := LastTermination(p.cells, sinks);
      var source := LastTermination(p.cells, sources);
      if sink.None? then Success(Some(MsgMissingSink))
      else if source.None? then Success(Some(MsgMissingSource))
      else if p.rows < 2 || p.cols < 2 then Success(Some(MsgBadDims))
      else if p.delay <= 0 then Success(Some(MsgBadDelay))
      else
        var sourceNext := Ahead(source.value);
        var sinkNext := Behind(sink.value);
        match WallAt(p.cells, sourceNext)
        case Failure(e) => Failure(e)
        case Success(true) => Success(Some(MsgSourceToWall))
        case Success(false) =>
          match WallAt(p.cells, sinkNext)
          case Failure(e) => Failure(e)
          case Success(true) => Success(Some(MsgSinkToWall))
          case Success(false) => Success(None)
  }

  /** The first four checks as independent conditions; the message reported
      is the first failing one, and the neighbour checks run only when all pass. */
  lemma CheckOrder(p: GameProperties, sources: seq<Coord>)
    requires AllInBounds(p.cells, SinkScan(p)) && AllInBounds(p.cells, sources)
    ensures var r := CheckWith(p, sources);
            && (r == Success(Some(MsgMissingSink)) <==> !SomeTermination(p.cells, SinkScan(p)))
            && (r == Success(Some(MsgMissingSource)) <==>
                  SomeTermination(p.cells, SinkScan(p)) && !SomeTermination(p.cells, sources))
            && (r == Success(Some(MsgBadDims)) <==>
                  SomeTermination(p.cells, SinkScan(p)) && SomeTermination(p.cells, sources)
                  && (p.rows < 2 || p.cols < 2))
            && (r == Success(Some(MsgBadDelay)) <==>
                  SomeTermination(p.cells, SinkScan(p)) && SomeTermination(p.cells, sources)
                  && p.rows >= 2 && p.cols >= 2 && p.delay <= 0)
            && (r.Success? && r.value.Some? && r.value.value in {MsgSourceToWall, MsgSinkToWall} ==>
                  SomeTermination(p.cells, SinkScan(p)) && SomeTermination(p.cells, sources)
                  && p.rows >= 2 && p.cols >= 2 && p.delay >= 1)
  {
  }

  /** The two neighbour checks, once the first four pass. With `source` the
      last termination the interior scan meets and `sink` the last one the
      border scan meets: the map is accepted exactly when the cell the source
      faces and the cell behind the sink are both inside the grid and neither
      is a wall; a wall in front of the source is reported first, then a wall
      behind the sink; a lookup outside the grid is an index error. */
  lemma CheckWalls(p: GameProperties, sources: seq<Coord>)
    requires AllInBounds(p.cells, SinkScan(p)) && AllInBounds(p.cells, sources)
    ensures var r := CheckWith(p, sources);
            var sink := LastTermination(p.cells, SinkScan(p));
            var source := LastTermination(p.cells, sources);
            && (r == Success(None) <==>
                  && FirstFourPass(p, sources)
                  && InBounds(p.cells, Ahead(source.value)) && !At(p.cells, Ahead(source.value)).Wall?
                  && InBounds(p.cells, Behind(sink.value)) && !At(p.cells, Behind(sink.value)).Wall?)
            && (r == Success(Some(MsgSourceToWall)) <==>
                  && FirstFourPass(p, sources)
                  && InBounds(p.cells, Ahead(source.value)) && At(p.cells, Ahead(source.value)).Wall?)
            && (r == Success(Some(MsgSinkToWall)) <==>
                  && FirstFourPass(p, sources)
                  && InBounds(p.cells, Ahead(source.value)) && !At(p.cells, Ahead(source.value)).Wall?
                  && InBounds(p.cells, Behind(sink.value)) && At(p.cells, Behind(sink.value)).Wall?)
            && (r.Failure? <==>
                  && FirstFourPass(p, sources)
                  && (|| !InBounds(p.cells, Ahead(source.value))
                      || (!At(p.cells, Ahead(source.value)).Wall? && !InBounds(p.cells, Behind(sink.value)))))
  {
  }

  /** `checkValidity` as written, scanning `[1, rows-2) x [1, cols-2)` for the source. */
  function CheckValidity(p: GameProperties): (r: Result<Option<string>, EditorError>)
    ensures r == Success(None) ==>
              && p.rows >= 2 && p.cols >= 2 && p.delay >= 1
              && (exists c :: c in SinkScan(p) && InBounds(p.cells, c) && At(p.cells, c).Termination?)
              && exists c: Coord :: 1 <= c.row < p.rows - 2 && 1 <= c.col < p.cols - 2
                             && InBounds(p.cells, c) && At(p.cells, c).Termination?
  {
    CheckWith(p, SourceScan(p))
  }

  /** `checkValidity` with the source scan covering the whole interior. */
  function CheckValidityCorrected(p: GameProperties): (r: Result<Option<string>, EditorError>)
    ensures r == Success(None) ==>
              && p.rows >= 2 && p.cols >= 2 && p.delay >= 1
              && (exists c :: c in SinkScan(p) && InBounds(p.cells, c) && At(p.cells, c).Termination?)
              && exists c: Coord :: 1 <= c.row < p.rows - 1 && 1 <= c.col < p.cols - 1
                             && InBounds(p.cells, c) && At(p.cells, c).Termination?
  {
    CheckWith(p, CorrectedSourceScan(p))
  }

  /** Under the editor invariant both neighbour lookups stay inside the grid,
      so the checker never fails with an index error, provided the grid has at
      least one row and one column and the source scan stays in the interior. */
  lemma CheckWithInBounds(p: GameProperties, sources: seq<Coord>)
    requires EditorInvariant(p) && p.rows >= 1 && p.cols >= 1
    requires forall c :: c in sources ==> 1 <= c.row < p.rows - 1 && 1 <= c.col < p.cols - 1
    ensures CheckWith(p, sources).Success?
  {
    var sinks := SinkScan(p);
    ScansInBounds(p, sources);
    var sink := LastTermination(p.cells, sinks);
    var source := LastTermination(p.cells, sources);
    if sink.Some? && source.Some? && p.rows >= 2 && p.cols >= 2 && p.delay > 0 {
      var k :| 0 <= k < |sources| && source.value == At(p.cells, sources[k]);
      SourceNeighbourInBounds(p, sources[k]);
      var m :| 0 <= m < |sinks| && sink.value == At(p.cells, sinks[m]);
      SinkNeighbourInBounds(p, sinks[m]);
    }
    assert NeighboursInBounds(p, sources);
    CheckWithSucceeds(p, sources);
  }

  /** When every check passes, both neighbour positions can be read. */
  predicate NeighboursInBounds(p: GameProperties, sources: seq<Coord>)
    requires AllInBounds(p.cells, SinkScan(p)) && AllInBounds(p.cells, sources)
  {
    var sink := LastTermination(p.cells, SinkScan(p));
    var source := LastTermination(p.cells, sources);
    sink.Some? && source.Some? && p.rows >= 2 && p.cols >= 2 && p.delay > 0 ==>
      && InBounds(p.cells, Ahead(source.value))
      && InBounds(p.cells, Behind(sink.value))
  }

  lemma CheckWithSucceeds(p: GameProperties, sources: seq<Coord>)
    requires AllInBounds(p.cells, SinkScan(p)) && AllInBounds(p.cells, sources)
    requires NeighboursInBounds(p, sources)
    ensures CheckWith(p, sources).Success?
  {
  }

  lemma ScansInBounds(p: GameProperties, sources: seq<Coord>)
    requires WellShaped(p) && p.rows >= 1 && p.cols >= 1
    requires forall c :: c in sources ==> 1 <= c.row < p.rows - 1 && 1 <= c.col < p.cols - 1
    ensures AllInBounds(p.cells, SinkScan(p)) && AllInBounds(p.cells, sources)
  {
  }

  /** The position a source at an interior position faces is inside the grid. */
  lemma SourceNeighbourInBounds(p: GameProperties, c: Coord)
    requires EditorInvariant(p)
    requires 1 <= c.row < p.rows - 1 && 1 <= c.col < p.cols - 1 && At(p.cells, c).Termination?
    ensures At(p.cells, c).coord == c
    ensures InBounds(p.cells, c.Add(Offset(At(p.cells, c).pointingTo)))
  {
  }

  /** The position behind a sink on the border, away from the edge it faces,
      is inside the grid once the grid is at least 2x2. */
  lemma SinkNeighbourInBounds(p: GameProperties, c: Coord)
    requires EditorInvariant(p) && p.rows >= 2 && p.cols >= 2
    requires c in SinkScan(p) && At(p.cells, c).Termination?
    ensures At(p.cells, c).coord == c
    ensures InBounds(p.cells, c.Add(Offset(Opposite(At(p.cells, c).pointingTo))))
  {
    assert !IsCorner(p.rows, p.cols, c.row, c.col);
    assert At(p.cells, c).pointingTo == Outward(p.rows, p.cols, c.row, c.col);
  }

  /** On a non-empty map that keeps the editor invariant, `checkValidity`
      (either version) always returns a verdict rather than an index error. */
  lemma CheckValidityInBounds(p: GameProperties)
    requires EditorInvariant(p) && p.rows >= 1 && p.cols >= 1
    ensures CheckValidity(p).Success?
    ensures CheckValidityCorrected(p).Success?
  {
    CheckWithInBounds(p, SourceScan(p));
    CheckWithInBounds(p, CorrectedSourceScan(p));
  }

  /** As written, the source scan of a map with three rows is empty, so such a
      map is never accepted: with a sink present it is reported as missing its
      source, wherever the source is. */
  lemma ThreeRowsNeverValid(p: GameProperties)
    requires p.rows == 3
    ensures CheckValidity(p) != Success(None)
    ensures AllInBounds(p.cells, SinkScan(p)) && SomeTermination(p.cells, SinkScan(p)) ==>
              CheckValidity(p) == Success(Some(MsgMissingSource))
  {
    assert SourceScan(p) == [];
  }

  /** With the whole interior scanned, "missing source" is reported exactly
      when a sink exists and no interior position holds a termination cell. */
  lemma CorrectedMissingSourceExact(p: GameProperties)
    requires WellShaped(p) && p.rows >= 1 && p.cols >= 1
    ensures AllInBounds(p.cells, SinkScan(p)) && AllInBounds(p.cells, CorrectedSourceScan(p))
    ensures CheckValidityCorrected(p) == Success(Some(MsgMissingSource)) <==>
              && SomeTermination(p.cells, SinkScan(p))
              && forall i, j :: 1 <= i < p.rows - 1 && 1 <= j < p.cols - 1 ==> !p.cells[i][j].Termination?
  {
    var sources := CorrectedSourceScan(p);
    assert AllInBounds(p.cells, SinkScan(p));
    CheckOrder(p, sources);
    if forall i, j :: 1 <= i < p.rows - 1 && 1 <= j < p.cols - 1 ==> !p.cells[i][j].Termination? {
      assert !SomeTermination(p.cells, sources);
    } else {
      var i, j :| 1 <= i < p.rows - 1 && 1 <= j < p.cols - 1 && p.cells[i][j].Termination?;
      assert Coord(i, j) in sources;
    }
  }

  /** A 3x3 map: walls on the corners and the left and right columns, a sink at
      (0, 1) pointing up, a source at (1, 1) pointing up at that sink, and
      fillable cells along the bottom row. */
  function SmallMap(delay: int): (p: GameProperties)
    ensures EditorInvariant(p)
  {
    GameProperties(3, 3, delay,
      [[Wall(Coord(0, 0)), Termination(Coord(0, 1), Up, Sink), Wall(Coord(0, 2))],
       [Wall(Coord(1, 0)), Termination(Coord(1, 1), Up, Source), Wall(Coord(1, 2))],
       [Wall(Coord(2, 0)), Fillable(Coord(2, 1)), Wall(Coord(2, 2))]])
  }

  /** What the scans of `SmallMap` find. */
  lemma ScanSmallMap(delay: int)
    ensures var p := SmallMap(delay);
            && AllInBounds(p.cells, SinkScan(p))
            && SourceScan(p) == []
            && CorrectedSourceScan(p) == [Coord(1, 1)]
            && AllInBounds(p.cells, CorrectedSourceScan(p))
            && LastTermination(p.cells, SinkScan(p)) == Some(Termination(Coord(0, 1), Up, Sink))
            && LastTermination(p.cells, CorrectedSourceScan(p)) == Some(Termination(Coord(1, 1), Up, Source))
  {
    var p := SmallMap(delay);
    var sinks := SinkScan(p);
    assert sinks == [Coord(0, 0), Coord(0, 2), Coord(1, 0), Coord(1, 2),
                     Coord(0, 0), Coord(2, 0), Coord(0, 1), Coord(2, 1)];
    assert sinks[..7][..6] == [Coord(0, 0), Coord(0, 2), Coord(1, 0), Coord(1, 2), Coord(0, 0), Coord(2, 0)];
    assert CorrectedSourceScan(p) == RowScan(1, 1, 2) + InteriorScan(2, 2, 2);
  }

  /** The map above has a source, yet the as-written checker reports it
      missing, while the corrected checker accepts the map. */
  lemma MissedSourceExample()
    ensures CheckValidity(SmallMap(1)) == Success(Some(MsgMissingSource))
    ensures CheckValidityCorrected(SmallMap(1)) == Success(None)
  {
    ScanSmallMap(1);
  }

  /** A 4x4 map: walls around the edge except a sink at (0, 1) pointing up,
      a source at (1, 1) pointing `facing`, and fillable cells on the rest of
      the interior. The source lies inside the as-written scan. */
  function FourMap(delay: int, facing: Direction): (p: GameProperties)
    ensures EditorInvariant(p)
  {
    GameProperties(4, 4, delay,
      [[Wall(Coord(0, 0)), Termination(Coord(0, 1), Up, Sink), Wall(Coord(0, 2)), Wall(Coord(0, 3))],
       [Wall(Coord(1, 0)), Termination(Coord(1, 1), facing, Source), Fillable(Coord(1, 2)), Wall(Coord(1, 3))],
       [Wall(Coord(2, 0)), Fillable(Coord(2, 1)), Fillable(Coord(2, 2)), Wall(Coord(2, 3))],
       [Wall(Coord(3, 0)), Wall(Coord(3, 1)), Wall(Coord(3, 2)), Wall(Coord(3, 3))]])
  }

  /** The border scan of a 4x4 grid, in visiting order. */
  lemma BorderScanFour()
    ensures SideScan(0, 3, 4) + EdgeScan(0, 3, 4) ==
              [Coord(0, 0), Coord(0, 3), Coord(1, 0), Coord(1, 3), Coord(2, 0), Coord(2, 3),
               Coord(0, 0), Coord(3, 0), Coord(0, 1), Coord(3, 1), Coord(0, 2), Coord(3, 2)]
  {
    assert SideScan(0, 3, 4) == [Coord(0, 0), Coord(0, 3), Coord(1, 0), Coord(1, 3), Coord(2, 0), Coord(2, 3)];
    assert EdgeScan(0, 3, 4) == [Coord(0, 0), Coord(3, 0), Coord(0, 1), Coord(3, 1), Coord(0, 2), Coord(3, 2)];
  }

  /** Cells after the last termination do not change what the scan keeps. */
  lemma {:induction false} LastTerminationSkip(cells: seq<seq<Cell>>, scan: seq<Coord>, n: nat)
    requires AllInBounds(cells, scan) && n <= |scan|
    requires forall m :: n <= m < |scan| ==> InBounds(cells, scan[m]) && !At(cells, scan[m]).Termination?
    ensures AllInBounds(cells, scan[..n])
    ensures LastTermination(cells, scan) == LastTermination(cells, scan[..n])
    decreases |scan| - n
  {
    if n < |scan| {
      var init := scan[..|scan| - 1];
      assert init[..n] == scan[..n];
      LastTerminationSkip(cells, init, n);
    } else {
      assert scan[..n] == scan;
    }
  }

  /** What the border scan of `FourMap` finds: the sink at (0, 1). */
  lemma SinkScanFourMap(delay: int, facing: Direction)
    ensures var p := FourMap(delay, facing);
            && AllInBounds(p.cells, SinkScan(p))
            && LastTermination(p.cells, SinkScan(p)) == Some(Termination(Coord(0, 1), Up, Sink))
  {
    var p := FourMap(delay, facing);
    var sinks := SinkScan(p);
    ScansInBounds(p, []);
    BorderScanFour();
    assert p.cells[3][1].Wall? && p.cells[0][2].Wall? && p.cells[3][2].Wall?;
    LastTerminationSkip(p.cells, sinks, 9);
    assert sinks[..9][8] == Coord(0, 1);
  }

  /** What the as-written interior scan of `FourMap` finds: the source at (1, 1). */
  lemma SourceScanFourMap(delay: int, facing: Direction)
    ensures var p := FourMap(delay, facing);
            && SourceScan(p) == [Coord(1, 1)]
            && AllInBounds(p.cells, SourceScan(p))
            && LastTermination(p.cells, SourceScan(p)) == Some(Termination(Coord(1, 1), facing, Source))
  {
    var p := FourMap(delay, facing);
    assert SourceScan(p) == RowScan(1, 1, 2) + InteriorScan(2, 2, 2);
  }

  lemma ScanFourMap(delay: int, facing: Direction)
    ensures var p := FourMap(delay, facing);
            && AllInBounds(p.cells, SinkScan(p)) && AllInBounds(p.cells, SourceScan(p))
            && LastTermination(p.cells, SinkScan(p)) == Some(Termination(Coord(0, 1), Up, Sink))
            && LastTermination(p.cells, SourceScan(p)) == Some(Termination(Coord(1, 1), facing, Source))
  {
    SinkScanFourMap(delay, facing);
    SourceScanFourMap(delay, facing);
  }

  /** The as-written checker does accept a map: `FourMap` with the source
      facing the sink passes, and with the source facing the wall at (1, 0)
      it is reported as blocked. */
  lemma AcceptedAsWritten()
    ensures CheckValidity(FourMap(1, Up)) == Success(None)
    ensures CheckValidity(FourMap(1, Left)) == Success(Some(MsgSourceToWall))
  {
    FourMapVerdict(1, Up);
    FourMapVerdict(1, Left);
  }

  /** The as-written verdict on `FourMap`, derived from the ordered checks. */
  lemma FourMapVerdict(delay: int, facing: Direction)
    ensures delay <= 0 ==> CheckValidity(FourMap(delay, facing)) == Success(Some(MsgBadDelay))
    ensures delay >= 1 && facing == Up ==> CheckValidity(FourMap(delay, facing)) == Success(None)
    ensures delay >= 1 && facing == Left ==> CheckValidity(FourMap(delay, facing)) == Success(Some(MsgSourceToWall))
  {
    var p := FourMap(delay, facing);
    var sources := SourceScan(p);
    ScanFourMap(delay, facing);
    assert SomeTermination(p.cells, SinkScan(p)) && SomeTermination(p.cells, sources);
    if delay <= 0 {
      CheckOrder(p, sources);
    } else if facing == Up {
      FourMapNeighbours(delay, facing);
      CheckWalls(p, sources);
    } else if facing == Left {
      FourMapNeighbours(delay, facing);
      CheckWalls(p, sources);
    }
  }

  /** The whole interior of a 4x4 grid, in visiting order. */
  lemma InteriorScanFour()
    ensures InteriorScan(1, 3, 3) == [Coord(1, 1), Coord(1, 2), Coord(2, 1), Coord(2, 2)]
  {
    assert RowScan(1, 1, 3) == [Coord(1, 1), Coord(1, 2)];
    assert RowScan(2, 1, 3) == [Coord(2, 1), Coord(2, 2)];
    assert InteriorScan(3, 3, 3) == [];
  }

  /** What the corrected interior scan of `FourMap` finds: still the source
      at (1, 1), since the rest of the interior is fillable. */
  lemma CorrectedScanFourMap(delay: int, facing: Direction)
    ensures AllInBounds(FourMap(delay, facing).cells, CorrectedSourceScan(FourMap(delay, facing)))
    ensures LastTermination(FourMap(delay, facing).cells, CorrectedSourceScan(FourMap(delay, facing)))
              == Some(Termination(Coord(1, 1), facing, Source))
  {
    var cells := FourMap(delay, facing).cells;
    var sources := CorrectedSourceScan(FourMap(delay, facing));
    InteriorScanFour();
    assert sources == [Coord(1, 1), Coord(1, 2), Coord(2, 1), Coord(2, 2)];
    assert AllInBounds(cells, sources);
    assert !cells[1][2].Termination? && !cells[2][1].Termination? && !cells[2][2].Termination?;
    LastTerminationSkip(cells, sources, 1);
    assert sources[..1] == [Coord(1, 1)];
  }

  /** The corrected checker also accepts `FourMap` with the source facing the sink. */
  lemma CorrectedAcceptsFourMap()
    ensures CheckValidityCorrected(FourMap(1, Up)) == Success(None)
  {
    var p := FourMap(1, Up);
    var sources := CorrectedSourceScan(p);
    CorrectedScanFourMap(1, Up);
    SinkScanFourMap(1, Up);
    assert SomeTermination(p.cells, SinkScan(p)) && SomeTermination(p.cells, sources);
    FourMapNeighbours(1, Up);
    CheckWalls(p, sources);
  }

  /** The cells next to the sink and the source of `FourMap`. */
  lemma FourMapNeighbours(delay: int, facing: Direction)
    requires facing == Up || facing == Left
    ensures var p := FourMap(delay, facing);
            var sink := Termination(Coord(0, 1), Up, Sink);
            var source := Termination(Coord(1, 1), facing, Source);
            && InBounds(p.cells, Behind(sink)) && !At(p.cells, Behind(sink)).Wall?
            && InBounds(p.cells, Ahead(source))
            && (At(p.cells, Ahead(source)).Wall? <==> facing == Left)
  {
    var cells: seq<seq<Cell>> := FourMap(delay, facing).cells;
    assert Behind(Termination(Coord(0, 1), Up, Sink)) == Coord(1, 1);
    assert cells[1][1].Termination?;
    if facing == Up {
      assert Ahead(Termination(Coord(1, 1), facing, Source)) == Coord(0, 1);
      assert cells[0][1].Termination?;
    } else {
      assert Ahead(Termination(Coord(1, 1), facing, Source)) == Coord(1, 0);
      assert cells[1][0].Wall?;
    }
  }

  /** On `FourMap`, the as-written checker accepts exactly the positive delays
      and reports the delay message for every other delay. */
  lemma DelayBoundary(delay: int)
    ensures CheckValidity(FourMap(delay, Up)) == Success(None) <==> delay >= 1
    ensures CheckValidity(FourMap(delay, Up)) == Success(Some(MsgBadDelay)) <==> delay <= 0
  {
    FourMapVerdict(delay, Up);
  }

  /** `saveToFile`: the map is printed only when `checkValidity`, as written,
      has nothing to report; an index error in the checker escapes as a
      failure. The user's choice of target file is not represented. */
  function SaveToFile(p: GameProperties, toChar: Cell -> char): (r: Result<Option<seq<string>>, EditorError>)
    ensures r.Failure? <==> CheckValidity(p).Failure?
    ensures r.Success? && r.value.Some? <==> CheckValidity(p) == Success(None)
    ensures r.Success? && r.value.Some? ==>
              && p.rows >= 2 && p.cols >= 2 && p.delay >= 1
              && r.value.value == Serialize(p, toChar)
              && |r.value.value| == HeaderLines + |p.cells|
  {
    match CheckValidity(p)
    case Failure(e) => Failure(e)
    case Success(msg) => Success(if msg.None? then Some(Serialize(p, toChar)) else None)
  }

  /** The save path with the whole interior scanned for the source. */
  function SaveToFileCorrected(p: GameProperties, toChar: Cell -> char): (r: Result<Option<seq<string>>, EditorError>)
    ensures r.Failure? <==> CheckValidityCorrected(p).Failure?
    ensures r.Success? && r.value.Some? <==> CheckValidityCorrected(p) == Success(None)
    ensures r.Success? && r.value.Some? ==>
              && p.rows >= 2 && p.cols >= 2 && p.delay >= 1
              && r.value.value == Serialize(p, toChar)
              && |r.value.value| == HeaderLines + |p.cells|
  {
    match CheckValidityCorrected(p)
    case Failure(e) => Failure(e)
    case Success(msg) => Success(if msg.None? then Some(Serialize(p, toChar)) else None)
  }

  /** The 3x3 map with a source is refused by the save path as written and
      printed by the corrected one; the 4x4 map is printed by both. */
  lemma SaveExamples(toChar: Cell -> char)
    ensures SaveToFile(SmallMap(1), toChar) == Success(None)
    ensures SaveToFileCorrected(SmallMap(1), toChar) == Success(Some(Serialize(SmallMap(1), toChar)))
    ensures SaveToFile(FourMap(1, Up), toChar) == Success(Some(Serialize(FourMap(1, Up), toChar)))
    ensures SaveToFileCorrected(FourMap(1, Up), toChar) == Success(Some(Serialize(FourMap(1, Up), toChar)))
  {
    MissedSourceExample();
    assert CheckValidity(SmallMap(1)) == Success(Some(MsgMissingSource));
    assert CheckValidityCorrected(SmallMap(1)) == Success(None);
    FourMapVerdict(1, Up);
    assert CheckValidity(FourMap(1, Up)) == Success(None);
    CorrectedAcceptsFourMap();
  }
}

=== FILE: Wrappers.dfy ===
/** Failure-carrying datatypes shared by the model: `Option` stands for a Java
    reference that may be null (or an `Optional`), `Result` for a call that may
    throw instead of returning. */
module Wrappers {

  datatype Option<+T> = None | Some(value: T)

  datatype Result<+R, +E> = Success(value: R) | Failure(error: E)
}
